=== FILE: README.md ===
# bytesize in Dafny

A model of the core of the Python `bytesize` package. A `Size` is an exact,
whole, possibly negative number of bytes. The model covers:

- construction from numbers, numeral strings and other Sizes, scaled by a
  unit and truncated toward zero;
- the unary and binary operators and the comparisons;
- `convertTo`, which gives the exact value of a Size in a unit;
- `components`, which picks the display unit from the byte unit and the
  decimal (kB … YB) or binary (KiB … YiB) ladder;
- `roundTo`, which snaps a Size to a multiple of a unit under one of four
  rounding methods;
- `format_magnitude` and `Size.__str__`, which render the value in the
  chosen unit with a configured number of places, optionally stripped of
  the trailing zeros of the digits before any exponent.

Python's `Fraction` is modelled as an unreduced numerator/denominator pair
(`Rationals.Rat`), compared by cross-multiplication. `Decimal.quantize` and
`str(Decimal)` under the default decimal context are modelled in
`Decimals`. That context rounds half to even, keeps 28 digits of
precision, and switches to exponent notation once the adjusted exponent
drops below -6. Errors are values of `Errors.SizeError`, carried in a
`Result`.

Modules, one file each:

| module | file | holds |
|---|---|---|
| `Errors` | errors.dfy | error kinds, `Result`, `Option` |
| `Rationals` | rationals.dfy | exact fractions, truncation, floor division |
| `Constants` | constants.dfy | units, the two ladders, rounding tags |
| `Config` | config.dfy | display configuration and its default |
| `Decimals` | decimals.dfy | numeral parsing, half-even quantizing, `str(Decimal)` |
| `Util` | util.dfy | `format_magnitude` |
| `FormatProperties` | format_properties.dfy | read-back and accuracy of formatted numbers |
| `Sizes` | sizes.dfy | the Size value, construction, operators, `convertTo` |
| `SizeLaws` | size_laws.dfy | laws relating the operators |
| `SizeComponents` | components.dfy | `components` |
| `SizeRounding` | rounding.dfy | `roundTo` |
| `SizeDisplay` | display.dfy | `Size.__str__` |
| `Scenarios` | scenarios.dfy | concrete cases from the test suite |

Two behaviours of the code that its documentation does not spell out:

- **`components` with `min_value` = 0.** The limit `FACTOR * 0` is met by
  no size, so the loop never breaks and every size, zero included, is
  shown in the largest unit (YiB or YB). This is what the comment at
  bytesize/_size.py:337-340 describes ("use the largest prefix"), and
  bytesize/_config.py:29-35 says nothing against it.
- **Display rounding.** It is half to even, as `Decimal.quantize` does
  under the default context. No documentation names a rounding rule.

Where the code and its own documentation disagree, the model follows the
code:

- **Exponent notation.** bytesize/_config.py:24-26 says `max_places` digits
  are shown, but `str(Decimal)` switches to exponent notation once the
  adjusted exponent drops below -6. Zero with seven places is shown as
  `"0E-7"`. In the model, where the formatter takes the exact fraction,
  small sizes reach it too with the floor at zero; the code itself raises
  `TypeError` before formatting (see below).
- **Strict accuracy.** The legacy docstring at bytesize/size.py:359-363
  promises `x - e < n < x + e`, with `e` half a unit in the last place.
  Rounding only guarantees `<=`: on an exact tie the bound is reached.
  1152 bytes are exactly 1.125 KiB and show as "1.12 KiB", a distance of
  exactly `e`. The model proves the non-strict bound, with the even last
  digit on a tie.

In one place the model follows the evident intent rather than the code:
`Util.Render`, `Util.FormatMagnitude` and `SizeDisplay.Str` strip only the
digits before the exponent. The code strips the exponent's zeros too; its
form is `Util.RenderAsWritten` (see Findings).

Four things the code relies on are absent from or wrong in it, and are
modelled as follows:

- **`int(unit)`.** `Unit` defines no `__int__`. It is modelled as the
  unit's `factor`.
- **`units.UNITS()`.** `components` calls this, but `UNITS` is a list. It is
  modelled as that list.
- **`round_fraction`.** `roundTo` imports it from `_util.py`, which does not
  define it. It is defined here by the expected results of the `roundTo`
  property test.
- **`Decimal(value)` on a `Fraction`.** `components` returns the exact
  `Fraction` from `convertTo` (bytesize/_size.py:312), and
  `format_magnitude` passes it to `Decimal` (bytesize/_util.py:54), which
  raises `TypeError` for a `Fraction`. The model renders the exact value,
  which is the evident intent.

## Model

| member | source | states |
|---|---|---|
| Rationals.Trunc | bytesize/_size.py:86 | `int()` of a fraction: the unique integer between zero and the fraction that is less than one away from it |
| Rationals.TruncUnique | bytesize/_size.py:86 | any integer meeting the truncation rule is the truncation, so truncation is well defined |
| Constants.UnitString | bytesize/_constants.py:68-69 | a unit is displayed as its abbreviation followed by "B" |
| Constants.LadderSpacing | bytesize/_constants.py:75-108 | each ladder has eight units, unit i is FACTOR^(i+1) bytes, each is FACTOR times the one before, and factors strictly increase |
| Constants.LadderContents | bytesize/_constants.py:80-108 | the ladder factors are 1000^k and 1024^k for k = 1..8, with abbreviations k..Y and Ki..Yi |
| Constants.LaddersDisjoint | bytesize/_constants.py:72-108 | bytes belong to neither ladder and the two ladders share no unit |
| Constants.RoundingTagsDistinct | bytesize/_constants.py:43-50 | there are exactly four distinct rounding methods |
| Sizes.ScaleFactor | bytesize/_size.py:86 | `int(units or B)`: absent units and `Size(0)`, false by `__bool__` (bytesize/_size.py:122-133), both give the bytes factor 1, a named unit gives its own factor, and any other Size gives its byte count |
| Sizes.New | bytesize/_size.py:68-101 | construction fails exactly for a bare unit, a Size given with units, or a string that is not a numeral, with the matching parameter named; otherwise the byte count is the scaled value truncated toward zero, or the copied Size |
| Sizes.Absolute | bytesize/_size.py:137-138 | the result is non-negative and equals the size or its negation |
| Sizes.Mul | bytesize/_size.py:232-242 | a Size times a number is the product truncated toward zero; a Size times a Size is a power-result error |
| Sizes.TrueDiv | bytesize/_size.py:272-280 | dividing by a zero Size is a division by zero; otherwise the fraction times the divisor equals the dividend |
| Sizes.DivMod | bytesize/_size.py:153-164 | for Sizes, `b * div + rem == a` with the remainder in the divisor's half-open range, and zero divisors fail |
| Sizes.FloorDivide | bytesize/_size.py:183-184 | the integer quotient of two Sizes is the floor: `q*b <= a < q*b + b` for positive b, mirrored for negative b |
| Sizes.Modulo | bytesize/_size.py:216-220 | the remainder of two Sizes takes the divisor's sign and is smaller than it in magnitude |
| Sizes.DivModScalar | bytesize/_size.py:161-163 | `divmod` by an exact number: floor quotient whose exact remainder lies between zero and the divisor, the remainder Size being that remainder truncated |
| Sizes.ModScalar | bytesize/_size.py:221-222 | `%` by an exact number fails exactly for a zero divisor |
| Sizes.FloorDivScalar | bytesize/_size.py:185-186 | `//` by an integer through `Decimal`: truncates toward zero; 0//0 and a quotient of 10^28 or more are invalid operations, another zero divisor is a division by zero |
| Sizes.TruncatedQuotientBound | bytesize/_size.py:186 | the truncated quotient reaches 10^28 exactly when the dividend is at least 10^28 times the divisor in magnitude |
| Sizes.FloorDivScalarFloored | bytesize/_size.py:180-181 | `//` as the comment describes it: the quotient whose exact remainder lies between zero and the divisor |
| Sizes.ConvertTo | bytesize/_size.py:293-312 | fails exactly for a non-positive factor; otherwise the value times the factor equals the byte count |
| Sizes.InUnits | bytesize/_size.py:312 | the exact value in a positive unit, which times the factor gives the byte count back |
| SizeLaws.NewFromInteger | bytesize/_size.py:83-86 | a whole number of bytes constructs exactly that Size |
| SizeLaws.NewFromNumeral | bytesize/_size.py:83-86 | a written integer, signed or not, constructs that many bytes |
| SizeLaws.ConvertRoundTrip | tests/size/named_test.py:60-63 | `Size(s.convertTo(u), u) == s` for every positive unit |
| SizeLaws.NewFromSize | bytesize/_size.py:90-97 | a Size copies unchanged, and refuses units |
| SizeLaws.UnaryLaws | bytesize/_size.py:137-144 | negation is an involution and additive inverse, unary plus is the identity, absolute value ignores sign |
| SizeLaws.AddSubInverse | bytesize/_size.py:147-150 | subtraction undoes addition and equals adding the negation |
| SizeLaws.MulByInteger | bytesize/_size.py:232-237 | multiplying by a whole number is exact |
| SizeLaws.TrueDivRoundTrip | bytesize/_size.py:272-279 | `(a / b) * b == a` for a non-zero divisor |
| SizeLaws.NoProductsOfSizes | bytesize/_size.py:240-249 | products and powers of Sizes are refused |
| SizeLaws.DivModAgrees | bytesize/_size.py:153-160 | `divmod(a, b)` is `(a // b, a % b)` for Sizes |
| SizeLaws.DivModUnique | bytesize/_size.py:154-160 | any pair with `b*div + rem == a` and the remainder in the divisor's range is what `divmod` returns |
| SizeLaws.DivModScalarAgrees | bytesize/_size.py:179-181 | the floored quotient and the exact remainder rebuild the dividend, and pair up as `divmod` does |
| SizeLaws.FloorDivScalarAgreesOnNonNegative | bytesize/_size.py:185-186 | for a non-negative size and positive divisor the decimal `//` equals the floor quotient |
| SizeLaws.FloorDivScalarDisagrees | bytesize/_size.py:180-186 | `Size(-3) // 2` is `Size(-1)` while `divmod` gives `(Size(-2), Size(1))`, so the commented identity fails |
| SizeLaws.ComparisonsAgree | bytesize/_size.py:176-214 | the six comparisons order Sizes by byte count, consistently with each other and with equality |
| SizeLaws.OrderMatchesConversion | bytesize/_size.py:196-214 | ordering Sizes is the same as ordering their exact values in any positive unit |
| SizeComponents.Select | bytesize/_size.py:341-349 | the loop stops at the first unit below the limit, or at the last unit, and every earlier unit is not below it |
| SizeComponents.Components | bytesize/_size.py:314-349 | a negative floor fails; otherwise the unit is one of bytes and the ladder and the value is the exact size in it |
| SizeComponents.CandidateSpacing | bytesize/_size.py:342 | nine candidates, bytes first then the ladder, each FACTOR times the one before |
| SizeComponents.BelowIsNextMisses | bytesize/_size.py:341-346 | being below FACTOR·min in one unit is the same as missing min in the next unit up |
| SizeComponents.MissesUpward | bytesize/_size.py:337-340 | a size missing the floor in one unit misses it in every larger unit |
| SizeComponents.ComponentsConsistent | tests/size/named_test.py:80-90 | value times factor is the byte count, the unit is bytes or in the chosen ladder, and off bytes the value meets the floor |
| SizeComponents.ComponentsFirstBelow | bytesize/_size.py:337-346 | the chosen unit passes the stopping test unless it is the largest, and every smaller candidate fails it |
| SizeComponents.ComponentsLargestMeeting | bytesize/_size.py:337-349 | the chosen unit is the largest candidate in which the size meets the floor, and bytes when none does |
| SizeRounding.RoundFraction | tests/size/named_test.py:111-138 | the result is the floor or the next integer, and the value itself when integral |
| SizeRounding.RoundFractionMeaning | tests/size/named_test.py:116-138 | down stays at or below, up at or above, half tags give a nearest integer, ties go up for HALF_UP and down for HALF_DOWN |
| SizeRounding.RoundTo | bytesize/_size.py:351-375 | fails exactly for a negative unit; a zero unit gives Size(0); otherwise the result is less than one unit from the size |
| SizeRounding.RoundToMatchesTest | tests/size/named_test.py:103-138 | for every size, non-negative unit and method, `roundTo` gives what the property test expects |
| SizeRounding.RoundToNearestMultiple | bytesize/_size.py:365-375 | the result is a multiple of the unit, at most the size rounding down, at least it rounding up, nearest under the half tags |
| SizeRounding.RoundToIdempotent | bytesize/_size.py:365-375 | rounding an already rounded size to the same unit changes nothing, under any method |
| SizeRounding.RoundToExact | tests/size/named_test.py:111-114 | a size already a multiple of the unit is returned unchanged |
| Decimals.NatDigits | bytesize/_util.py:59 | the digits of a natural number: non-empty, no leading zero, "0" for zero |
| Decimals.NatDigitsValue | bytesize/_util.py:59 | reading back the digits of n gives n |
| Decimals.DigitsValueAppend | bytesize/_util.py:59 | the value of concatenated digit strings is the first scaled by 10^len(second) plus the second |
| Decimals.RoundHalfEven | bytesize/_util.py:57 | the rounded quotient is within half a unit of the exact one |
| Decimals.RoundHalfEvenIsNearest | bytesize/_util.py:57 | the rounded quotient is a nearest integer, and the even one on an exact tie |
| Decimals.QuantizeCoefficient | bytesize/_util.py:57 | the quantized coefficient is within half a unit in the last place of the magnitude |
| Decimals.PlainDigits | bytesize/_util.py:59 | a point sits exactly `places` characters from the end, with digits on both sides |
| Util.RStrip | bytesize/_util.py:62 | the result is a prefix not ending in the character, and only that character was removed |
| Util.FormatMagnitude | bytesize/_util.py:27-64 | a negative `max_places` is a value error, a quantized coefficient of 10^28 or more is an invalid operation, and otherwise the result is a string |
| Util.StripMantissaPlain | bytesize/_util.py:61-62 | on text with no exponent, stripping the digits before the exponent is exactly the code's `rstrip("0").rstrip(".")` when the text has a point, and nothing otherwise |
| Util.RenderAgreesWhenPlain | bytesize/_util.py:54-62 | the modelled and the as-written renderings agree without stripping, and with stripping whenever the text is written without exponent (always for at most six places) |
| Util.RenderExactPlaces | bytesize/_util.py:54-59 | without stripping, the text has exactly `max_places` digits after its only point |
| Util.RenderStrippedShape | bytesize/_util.py:61-62 | with stripping, for any number of places, the digits before any exponent never end in a point, nor in a zero while they have a point; the exponent is kept; text without a point is untouched |
| Util.StripZerosShape | bytesize/_util.py:62 | stripping a pointed numeral leaves no trailing point and, while a point remains, no trailing zero |
| Util.DecimalStringShape | bytesize/_util.py:59 | `str(Decimal)` has at most one point, not at either end; it is plain with exactly `places` digits after the point whenever it is written without exponent, which is always so for at most six places |
| FormatProperties.ParsePointed | bytesize/_size.py:86 | a signed numeral with a point parses to its exact value |
| FormatProperties.ParseExponentForm | bytesize/_size.py:86 | a numeral followed by `E` and an exponent k parses to the numeral's value with the point moved k places |
| FormatProperties.DecimalStringReadsBack | bytesize/_util.py:57-59 | for every number of places, the `str(Decimal)` rendering of a quantized value, plain or with an exponent, parses back to the signed coefficient over 10^places |
| FormatProperties.RenderReadsBack | bytesize/_util.py:54-59 | for every number of places, the unstripped text, plain or with an exponent, parses back to the signed quantized coefficient over 10^places |
| FormatProperties.FormatHalfUnitAccuracy | bytesize/size.py:359-363 | for every number of places, the shown number is within half a unit in the last place of the exact value (`<=`, not the docstring's strict `<`), and where it is exactly half a unit away its last digit is even |
| FormatProperties.TrailingZerosSameValue | bytesize/_util.py:62 | trailing fraction zeros do not change a numeral's value |
| FormatProperties.StripKeepsDecimalValue | bytesize/_util.py:61-62 | stripping a plain decimal text keeps its exact value |
| FormatProperties.StripKeepsValue | bytesize/_util.py:61-62 | for every number of places, the stripped and unstripped renderings parse to equal values, exponent forms included |
| FormatProperties.ScientificStripReadsBack | bytesize/_util.py:59-62 | stripping the mantissa of an exponent-form rendering keeps the value it reads back as |
| FormatProperties.FormatStrippedReadsBack | bytesize/_util.py:61-62 | for every number of places, the stripped digits before any exponent end in neither a point nor, while pointed, a zero; the exponent is the unstripped one; both texts read back as equal values |
| SizeDisplay.Str | bytesize/_size.py:103-113 | a negative floor and a negative place count fail in that order; a success ends with a space and the unit string |
| SizeDisplay.StrParts | bytesize/_size.py:103-113 | a successful display is the formatted magnitude of the components, a space and the unit string |
| SizeDisplay.StrReadsBack | bytesize/size.py:359-363 | for every number of places, the displayed number, times the unit's factor, is within half a unit in the last place of the byte count (non-strict); written without exponent it shows exactly `max_places` digits after its point |
| SizeDisplay.StrStrippedReadsBack | bytesize/_util.py:61-62 | with stripping, for every number of places, the displayed digits before any exponent are well formed, the exponent is kept, and the value equals the unstripped one |
| SizeDisplay.DefaultStrDefined | bytesize/_config.py:88-93 | every size below 10^25 bytes has a display under the default configuration |
| Scenarios.TextCase | tests/size/size_test.py:55 | `Size("1024.6")` is 1024 bytes |
| Scenarios.NegativeTextCase | bytesize/_size.py:79-81 | `Size("-0.5")` is 0 bytes, rounding toward zero |
| Scenarios.WholeTextCase | tests/size/size_test.py:69-71 | `Size("1024")` equals `Size(1, KiB)` |
| Scenarios.NumberCases | tests/size/size_test.py:53-78 | 1/1025 KiB is 0 bytes, 1/1023 KiB is 1 byte, 512 KiB equals 1/2 MiB; the test passes `1/Decimal(1025)`, a 28-digit rounding of 1/1025, and the exact fractions give the same byte counts |
| Scenarios.ZeroSizeUnitsCase | bytesize/_size.py:86 | `Size(5, Size(0))` is 5 bytes, since `Size(0)` is false and `units or B` picks bytes; `Size(5, Size(3))` is 15 bytes |
| Scenarios.RefusedCases | tests/size/size_test.py:59-67 | "1.1.1", a bare unit and a Size with units are refused; a Size without units is copied |
| Scenarios.ComponentsDefaultFloor | tests/size/size_test.py:105-106 | 9 MiB is shown as 9 MiB by default |
| Scenarios.ComponentsRaisedFloor | tests/size/size_test.py:107 | with floor 10, 9 MiB is shown as 9216 KiB |
| Scenarios.ComponentsDecimal | tests/size/size_test.py:147-150 | 1000 bytes are 1 kB in decimal units |
| Scenarios.ComponentsBytes | tests/size/size_test.py:142-145 | 500 bytes stay in bytes |
| Scenarios.ComponentsNegativeFloor | tests/size/size_test.py:136-140 | a negative floor is refused |
| Scenarios.RoundToCases | bytesize/_size.py:365-375 | 1536 bytes round to 2 KiB half-up and 1 KiB half-down, negatives round toward the tag's direction, a zero unit gives zero, a negative unit fails |
| Scenarios.DefaultCase | tests/size/size_test.py:85-86 | `str(Size(58929971))` is "56.20 MiB" |
| Scenarios.ZeroCase | bytesize/_size.py:103-113 | `str(Size(0))` is "0.00 B" |
| Scenarios.LargestCase | tests/size/size_test.py:224-226 | `str(Size(1024**9 + 1))` is "1024.00 YiB" |
| Scenarios.StrippedWholeCase | tests/size/size_test.py:170-174 | with stripping, exactly 4 PiB is shown as "4 PiB" |
| Scenarios.StrippedFractionCase | tests/size/size_test.py:179-180 | with stripping, 12.6998 TiB is shown as "12.7 TiB" |
| Scenarios.StrippedBytesCase | tests/size/size_test.py:182-184 | with stripping, 255 bytes are shown as "255 B" |
| Scenarios.DisplayTieCase | bytesize/_util.py:57 | 1152 bytes, exactly 1.125 KiB, are shown as "1.12 KiB": the tie goes to the even digit |
| Scenarios.ExponentCase | bytesize/_util.py:57-59 | zero with seven places is shown as "0E-7 B" |
| Scenarios.StripBreaksExponent | bytesize/_util.py:61-62 | 1/2000000000 at eleven places is "5.0E-10"; the code strips it to "5.0E-1", which reads back as a different value; the modelled rendering is "5E-10" |
| Scenarios.StripBreaksDisplay | bytesize/_size.py:103-113 | in the model, with floor 0, eleven places and stripping, 604462909807315 bytes display as "5E-10 YiB", where the code's stripping of that magnitude gives "5.0E-1" |

## Left out

- Python's type dispatch is not modelled. That covers `SizeNonsensicalBinOpError` for operands of the wrong type and the `isinstance` checks on `min_value` and `max_places`. The datatypes only admit well-typed operands.
- Reflected operators (`__radd__`, `__rdivmod__`, `__rfloordiv__`, `__rmod__`, `__rsub__`, `__rtruediv__`, `__rpow__`), `__hash__`, `__repr__`, `__deepcopy__` and `__bool__` are left out. They restate the forward operators or do not touch the byte count.
- Floats are left out. `format_magnitude` rejects them and Dafny has none.
- `Decimal(value)` in `format_magnitude` (bytesize/_util.py:54) is not modelled. The formatter takes the exact rational that `components` returns; given a `Fraction`, the code itself raises `TypeError` there (see above).
- `max_places=None` (display of all digits) is left out. Only a fixed number of places is modelled.
- `Fraction(str)` is modelled for decimal numerals: sign, digits, at most one point, and an optional `E`/`e` exponent with its own sign. Whitespace, `n/d` forms, underscores and non-ASCII digits are left out.
- Non-finite `Decimal` inputs are left out. The docstring at bytesize/_size.py:72 admits finite values only. `Fraction(Decimal('Infinity'))` raises `OverflowError`, which bytesize/_size.py:87 does not catch. A NaN raises `ValueError` and becomes `SizeValueError`.
- Sizes.ModScalar: states only when `%` by a number fails, not the remainder's range. Its value is the remainder `DivModScalar` bounds, tied to it by SizeLaws.DivModScalarAgrees.
- Sizes.FloorDivScalar: models an integer divisor only. `Decimal.__floordiv__` by a `Fraction` returns `NotImplemented`, and `Size(NotImplemented)` then raises `SizeValueError(value, "value")` (bytesize/_size.py:98-99, 186). A `Decimal` divisor is not modelled.
- `divmod` and `%` with a `Decimal` divisor are left out. Python's `int` and `Decimal` remainders differ in sign for such divisors.
- Quantizing to more than about a million places is left out. The decimal context's minimum exponent would intervene.
- The mutable process-wide display configuration (`set_str_config`) is left out. `Str` takes the configuration as a parameter.
- The legacy `bytesize/size.py` class is not part of this model. Its docstring is cited only for the accuracy promise the current display keeps.

## Findings

| source | as written | input that shows it | evidently intended | confidence | as-written member | corrected member |
|---|---|---|---|---|---|---|
| bytesize/_size.py:179-186 | `Size // number` converts the byte count to `Decimal`, whose `//` truncates toward zero | `Size(-3) // 2` gives `Size(-1)`, but `divmod(Size(-3), 2)` gives `(Size(-2), Size(1))` and `2 * -1 + 1 != -3` | the floor quotient, so that `other * floor + rem == self` as the comment says | not executed | SizeLaws.FloorDivScalarDisagrees | SizeLaws.DivModScalarAgrees |
| bytesize/_util.py:61-62 | `rstrip("0").rstrip(".")` runs over the whole `str(Decimal)` text, exponent included | `format_magnitude(Decimal("5E-10"), max_places=11, strip=True)` gives "5.0E-1", 10^9 times the value; in the model, where the formatter takes the exact fraction, `str(Size(604462909807315))` with floor 0, eleven places and stripping reaches it, while the code raises `TypeError` before formatting (`int(B)` and `Decimal(Fraction)`) | strip trailing zeros from the digits before the exponent only, giving "5E-10" | not executed | Scenarios.StripBreaksExponent | FormatProperties.StripKeepsValue |

=== FILE: components.dfy ===
/** `Size.components`: the choice of a display unit. The loop tries the
    byte unit and then the ladder from its smallest unit upwards, and stops
    at the first unit in which the size is below `FACTOR * min_value` in
    magnitude; when no unit qualifies it ends on the largest one. */
module SizeComponents {
  import opened Rationals
  import opened Errors
  import opened Constants
  import opened Sizes

  /** The units the loop tries, in order: bytes, then the ladder. */
  function Candidates(sys: UnitSystem): seq<Unit> {
    [B] + Ladder(sys)
  }

  /** All units in `units` have a positive factor. */
  predicate PositiveFactors(units: seq<Unit>) {
    forall k :: 0 <= k < |units| ==> units[k].factor > 0
  }

  /** The loop's stopping test: `abs(s.convertTo(u)) < limit`. */
  predicate Below(s: Size, u: Unit, limit: Rat)
    requires u.factor > 0
  {
    Less(Abs(InUnits(s, u.factor)), limit)
  }

  /** The value of `s` in `u` is at least `min_value` in magnitude. */
  predicate Meets(s: Size, u: Unit, minValue: Rat)
    requires u.factor > 0
  {
    !Less(Abs(InUnits(s, u.factor)), minValue)
  }

  /** The index at which the loop over `units`, started at `i`, stops: the
      first unit below the limit, or the last unit when none is. */
  function Select(s: Size, limit: Rat, units: seq<Unit>, i: nat): (j: nat)
    requires i < |units| && PositiveFactors(units)
    ensures i <= j < |units|
    ensures j == |units| - 1 || Below(s, units[j], limit)
    ensures forall k :: i <= k < j ==> !Below(s, units[k], limit)
    decreases |units| - i
  {
    if i == |units| - 1 || Below(s, units[i], limit) then i else Select(s, limit, units, i + 1)
  }

  /** `s.components(min_value, binary_units)`: the exact value of the size
      in the chosen unit, and that unit. A negative `min_value` is
      rejected. */
  function Components(s: Size, minValue: Rat, binaryUnits: bool): (r: Result<(Rat, Unit)>)
    ensures r.Err? <==> IsNegative(minValue)
    ensures r.Err? ==> r.error == SizeValueError("min_value")
    ensures r.Ok? ==> r.value.1 in Candidates(SystemOf(binaryUnits))
    ensures r.Ok? ==> r.value.1.factor > 0 && r.value.0 == InUnits(s, r.value.1.factor)
  {
    if IsNegative(minValue) then Err(SizeValueError("min_value"))
    else
      var sys := SystemOf(binaryUnits);
      var units := Candidates(sys);
      CandidateSpacing(sys);
      var j := Select(s, Scale(minValue, Factor(sys)), units, 0);
      Ok((InUnits(s, units[j].factor), units[j]))
  }

  /** The candidate list: nine units, bytes first, each FACTOR times the
      one before, so their factors strictly increase. */
  lemma CandidateSpacing(sys: UnitSystem)
    ensures |Candidates(sys)| == 9 && Candidates(sys)[0] == B
    ensures PositiveFactors(Candidates(sys))
    ensures forall k :: 0 < k < 9 ==> Candidates(sys)[k] == Ladder(sys)[k - 1]
    ensures forall k :: 0 < k < 9 ==>
              Candidates(sys)[k].factor == Factor(sys) * Candidates(sys)[k - 1].factor
    ensures forall i, j :: 0 <= i < j < 9 ==> Candidates(sys)[i].factor < Candidates(sys)[j].factor
  {
    LadderSpacing(sys);
    var c := Candidates(sys);
    forall i, j | 0 <= i < j < 9
      ensures c[i].factor < c[j].factor
    {
      if i > 0 {
        assert c[i] == Ladder(sys)[i - 1] && c[j] == Ladder(sys)[j - 1];
      }
    }
  }

  /** The index of the unit `components` picks. */
  function ChosenIndex(s: Size, minValue: Rat, binaryUnits: bool): (j: nat)
    requires !IsNegative(minValue)
    ensures j < 9
  {
    var sys := SystemOf(binaryUnits);
    CandidateSpacing(sys);
    Select(s, Scale(minValue, Factor(sys)), Candidates(sys), 0)
  }

  lemma ChosenUnit(s: Size, minValue: Rat, binaryUnits: bool)
    requires !IsNegative(minValue)
    ensures Components(s, minValue, binaryUnits).value.1
         == Candidates(SystemOf(binaryUnits))[ChosenIndex(s, minValue, binaryUnits)]
  {
  }

  /** Stopping one unit early is the same as falling below `min_value` one
      unit later: `|n / f| < FACTOR * min` exactly when
      `|n / (FACTOR * f)| < min`. */
  lemma BelowIsNextMisses(s: Size, minValue: Rat, sys: UnitSystem, u: Unit, v: Unit)
    requires u.factor > 0 && v.factor == Factor(sys) * u.factor
    ensures v.factor > 0
    ensures Below(s, u, Scale(minValue, Factor(sys))) <==> !Meets(s, v, minValue)
  {
    var n := Abs(InUnits(s, u.factor)).num;
    assert Abs(InUnits(s, v.factor)).num == n;
    assert minValue.num * Factor(sys) * u.factor == minValue.num * v.factor;
  }

  /** Missing `min_value` in one unit means missing it in every larger
      unit, when `min_value` is not negative. */
  lemma MissesUpward(s: Size, minValue: Rat, u: Unit, v: Unit)
    requires 0 < u.factor <= v.factor && !IsNegative(minValue)
    requires !Meets(s, u, minValue)
    ensures !Meets(s, v, minValue)
  {
    MulMonotone(u.factor, v.factor, minValue.num);
  }

  /** What the test suite checks of `components`: the value times the
      unit's factor is the byte count, the unit is bytes or one of the
      chosen ladder, and, unless it is bytes, the value is at least
      `min_value` in magnitude. */
  lemma ComponentsConsistent(s: Size, minValue: Rat, binaryUnits: bool)
    requires !IsNegative(minValue)
    ensures var (m, u) := Components(s, minValue, binaryUnits).value;
            && Eq(Scale(m, u.factor), FromInt(s.bytes))
            && (u == B || u in Ladder(SystemOf(binaryUnits)))
            && (u != B ==> !Less(Abs(m), minValue))
  {
    var sys := SystemOf(binaryUnits);
    var c := Candidates(sys);
    CandidateSpacing(sys);
    var j := ChosenIndex(s, minValue, binaryUnits);
    ChosenUnit(s, minValue, binaryUnits);
    if j > 0 {
      assert c[j] == Ladder(sys)[j - 1];
      BelowIsNextMisses(s, minValue, sys, c[j - 1], c[j]);
    }
  }

  /** The loop's rule, stated on the result: every smaller candidate fails
      the stopping test, and the chosen unit passes it unless it is the
      largest. */
  lemma ComponentsFirstBelow(s: Size, minValue: Rat, binaryUnits: bool)
    requires !IsNegative(minValue)
    ensures var sys := SystemOf(binaryUnits);
            var u := Components(s, minValue, binaryUnits).value.1;
            var limit := Scale(minValue, Factor(sys));
            && (u == Ladder(sys)[7] || Below(s, u, limit))
            && forall k :: 0 <= k < 9 && Candidates(sys)[k].factor < u.factor ==>
                 !Below(s, Candidates(sys)[k], limit)
  {
    var sys := SystemOf(binaryUnits);
    var c := Candidates(sys);
    CandidateSpacing(sys);
    var j := ChosenIndex(s, minValue, binaryUnits);
    ChosenUnit(s, minValue, binaryUnits);
    forall k | 0 <= k < 9 && c[k].factor < c[j].factor
      ensures k < j
    {
    }
  }

  /** The same choice described by what it achieves: the chosen unit is the
      largest candidate in which the size is at least `min_value` in
      magnitude, and bytes when there is none. */
  lemma ComponentsLargestMeeting(s: Size, minValue: Rat, binaryUnits: bool)
    requires !IsNegative(minValue)
    ensures var sys := SystemOf(binaryUnits);
            var u := Components(s, minValue, binaryUnits).value.1;
            && (u == B || Meets(s, u, minValue))
            && forall k :: 0 <= k < 9 && Candidates(sys)[k].factor > u.factor ==>
                 !Meets(s, Candidates(sys)[k], minValue)
  {
    var sys := SystemOf(binaryUnits);
    var c := Candidates(sys);
    CandidateSpacing(sys);
    var j := ChosenIndex(s, minValue, binaryUnits);
    ChosenUnit(s, minValue, binaryUnits);
    ComponentsConsistent(s, minValue, binaryUnits);
    if j < 8 {
      BelowIsNextMisses(s, minValue, sys, c[j], c[j + 1]);
      forall k | 0 <= k < 9 && c[k].factor > c[j].factor
        ensures !Meets(s, c[k], minValue)
      {
        if k > j + 1 {
          MissesUpward(s, minValue, c[j + 1], c[k]);
        }
      }
    }
  }
}

=== FILE: config.dfy ===
/** The display configuration record consumed by `Size.__str__`. */
module Config {
  import opened Rationals

  /** `max_places` digits after the point, whether trailing zeros are
      stripped, the legibility floor `min_value`, and the unit system. A
      `max_places` of None is not part of this model. */
  datatype StrConfig = StrConfig(maxPlaces: int, strip: bool, minValue: Rat, binaryUnits: bool)

  /** `Defaults.STR_CONFIG`: two places, no stripping, floor 1, binary units. */
  const DefaultConfig := StrConfig(2, false, FromInt(1), true)
}

=== FILE: constants.dfy ===
/** The unit tables and rounding tags: the byte unit, the decimal (SI) and
    binary (IEC 80000-13) prefix ladders, and the four rounding methods. */
module Constants {
  import opened Rationals

  /** A named multiple of bytes: `abbr` precedes "B" when displayed. */
  datatype Unit = Unit(factor: nat, prefix: string, abbr: string)

  /** The four rounding methods accepted by `roundTo`. */
  datatype Rounding = RoundDown | RoundHalfDown | RoundHalfUp | RoundUp

  /** The two unit systems a size can be displayed in. */
  datatype UnitSystem = Decimal | Binary

  /** The universal unit, bytes. */
  const B := Unit(1, "", "")

  const DecimalFactor: nat := 1000
  const BinaryFactor: nat := 1024

  const KB := Unit(Pow(DecimalFactor, 1), "kilo", "k")
  const MB := Unit(Pow(DecimalFactor, 2), "mega", "M")
  const GB := Unit(Pow(DecimalFactor, 3), "giga", "G")
  const TB := Unit(Pow(DecimalFactor, 4), "tera", "T")
  const PB := Unit(Pow(DecimalFactor, 5), "peta", "P")
  const EB := Unit(Pow(DecimalFactor, 6), "exa", "E")
  const ZB := Unit(Pow(DecimalFactor, 7), "zetta", "Z")
  const YB := Unit(Pow(DecimalFactor, 8), "yotta", "Y")

  const KiB := Unit(Pow(BinaryFactor, 1), "kibi", "Ki")
  const MiB := Unit(Pow(BinaryFactor, 2), "mebi", "Mi")
  const GiB := Unit(Pow(BinaryFactor, 3), "gibi", "Gi")
  const TiB := Unit(Pow(BinaryFactor, 4), "tebi", "Ti")
  const PiB := Unit(Pow(BinaryFactor, 5), "pebi", "Pi")
  const EiB := Unit(Pow(BinaryFactor, 6), "exbi", "Ei")
  const ZiB := Unit(Pow(BinaryFactor, 7), "zebi", "Zi")
  const YiB := Unit(Pow(BinaryFactor, 8), "yobi", "Yi")

  const DecimalUnits: seq<Unit> := [KB, MB, GB, TB, PB, EB, ZB, YB]
  const BinaryUnits: seq<Unit> := [KiB, MiB, GiB, TiB, PiB, EiB, ZiB, YiB]

  /** `FACTOR` of the chosen ladder. */
  function Factor(sys: UnitSystem): nat {
    match sys
    case Decimal => DecimalFactor
    case Binary => BinaryFactor
  }

  /** `UNITS` of the chosen ladder, smallest factor first. */
  function Ladder(sys: UnitSystem): seq<Unit> {
    match sys
    case Decimal => DecimalUnits
    case Binary => BinaryUnits
  }

  /** The system chosen by the `binary_units` flag. */
  function SystemOf(binaryUnits: bool): UnitSystem {
    if binaryUnits then Binary else Decimal
  }

  /** The display string of a unit: its abbreviation followed by "B". */
  function UnitString(u: Unit): (s: string)
    ensures |s| == |u.abbr| + 1 && s[|s| - 1] == 'B'
    ensures s[..|u.abbr|] == u.abbr
  {
    u.abbr + "B"
  }

  /** Each ladder has eight units; unit `i` is FACTOR^(i+1) bytes, so the
      first is FACTOR times the byte unit and each next one is FACTOR times
      the one before; the factors strictly increase. */
  lemma LadderSpacing(sys: UnitSystem)
    ensures |Ladder(sys)| == 8
    ensures Ladder(sys)[0].factor == Factor(sys) * B.factor
    ensures forall i :: 0 <= i < 8 ==> Ladder(sys)[i].factor == Pow(Factor(sys), i + 1)
    ensures forall i :: 0 < i < 8 ==> Ladder(sys)[i].factor == Factor(sys) * Ladder(sys)[i - 1].factor
    ensures forall i, j :: 0 <= i < j < 8 ==> Ladder(sys)[i].factor < Ladder(sys)[j].factor
  {
    var f := Factor(sys);
    var l := Ladder(sys);
    forall i | 0 <= i < 8
      ensures l[i].factor == Pow(f, i + 1)
    {
    }
    forall i, j | 0 <= i < j < 8
      ensures l[i].factor < l[j].factor
    {
      PowStrictlyIncreasing(f, i + 1, j + 1);
    }
  }

  lemma {:induction false} PowStrictlyIncreasing(base: nat, a: nat, b: nat)
    requires base > 1 && a < b
    ensures Pow(base, a) < Pow(base, b)
    decreases b
  {
    if a < b - 1 {
      PowStrictlyIncreasing(base, a, b - 1);
    }
    MulGrows(base, Pow(base, b - 1));
  }

  lemma MulGrows(base: nat, p: nat)
    requires base > 1 && p > 0
    ensures p < base * p
  {
  }

  /** The ladder constants written out: 1000^k and 1024^k for k = 1..8, with
      the abbreviations k..Y and Ki..Yi. */
  lemma LadderContents()
    ensures [KB.factor, MB.factor, GB.factor, TB.factor, PB.factor, EB.factor, ZB.factor, YB.factor]
         == [1000, 1000000, 1000000000, 1000000000000, 1000000000000000,
             1000000000000000000, 1000000000000000000000, 1000000000000000000000000]
    ensures [KiB.factor, MiB.factor, GiB.factor, TiB.factor, PiB.factor, EiB.factor, ZiB.factor, YiB.factor]
         == [1024, 1048576, 1073741824, 1099511627776, 1125899906842624,
             1152921504606846976, 1180591620717411303424, 1208925819614629174706176]
    ensures [KB.abbr, MB.abbr, GB.abbr, TB.abbr, PB.abbr, EB.abbr, ZB.abbr, YB.abbr]
         == ["k", "M", "G", "T", "P", "E", "Z", "Y"]
    ensures [KiB.abbr, MiB.abbr, GiB.abbr, TiB.abbr, PiB.abbr, EiB.abbr, ZiB.abbr, YiB.abbr]
         == ["Ki", "Mi", "Gi", "Ti", "Pi", "Ei", "Zi", "Yi"]
  {
  }

  /** The byte unit is not a member of either ladder, and the two ladders
      share no unit. */
  lemma LaddersDisjoint()
    ensures B !in DecimalUnits && B !in BinaryUnits
    ensures forall u :: u in DecimalUnits ==> u !in BinaryUnits
  {
  }

  /** The four rounding tags are pairwise distinct and there are no others. */
  lemma RoundingTagsDistinct(r: Rounding)
    ensures r == RoundDown || r == RoundHalfDown || r == RoundHalfUp || r == RoundUp
    ensures |{RoundDown, RoundHalfDown, RoundHalfUp, RoundUp}| == 4
  {
  }
}

=== FILE: decimals.dfy ===
/** The parts of Python's `fractions` and `decimal` modules the size engine
    leans on: reading a decimal numeral as an exact fraction
    (`Fraction(str)`), quantizing a rational to a fixed number of places
    (`Decimal.quantize` under the default context, which rounds half to
    even with a precision of 28 digits), and writing the quantized value
    the way `str(Decimal)` does. */
module Decimals {
  import opened Rationals
  import opened Errors

  /** The default decimal context's precision. */
  const Precision: nat := 28

  /** `10^28`, the first coefficient the default context cannot hold. */
  lemma PrecisionLimit()
    ensures Pow(10, Precision) == 10_000_000_000_000_000_000_000_000_000
  {
    assert Pow(10, 4) == 10_000;
    assert Pow(10, 8) == 100_000_000;
    assert Pow(10, 12) == 1_000_000_000_000;
    assert Pow(10, 16) == 10_000_000_000_000_000;
    assert Pow(10, 20) == 100_000_000_000_000_000_000;
    assert Pow(10, 24) == 1_000_000_000_000_000_000_000_000;
  }

  predicate IsDigit(c: char) {
    '0' <= c <= '9'
  }

  predicate AllDigits(s: string) {
    forall i :: 0 <= i < |s| ==> IsDigit(s[i])
  }

  function DigitChar(d: nat): (c: char)
    requires d < 10
    ensures IsDigit(c)
  {
    ('0' as int + d) as char
  }

  /** The number a string of digits spells, most significant digit first. */
  function DigitsValue(s: string): nat
    requires AllDigits(s)
    decreases |s|
  {
    if |s| == 0 then 0 else DigitsValue(s[..|s| - 1]) * 10 + (s[|s| - 1] as int - '0' as int)
  }

  /** `str(n)` for a natural number: decimal digits without leading zeros. */
  function NatDigits(n: nat): (s: string)
    ensures |s| > 0 && AllDigits(s)
    ensures n == 0 ==> s == "0"
    ensures n > 0 ==> s[0] != '0'
    decreases n
  {
    if n < 10 then [DigitChar(n)] else NatDigits(n / 10) + [DigitChar(n % 10)]
  }

  /** `n` zero digits. */
  function Zeros(n: nat): (s: string)
    ensures |s| == n && AllDigits(s)
    ensures forall i :: 0 <= i < n ==> s[i] == '0'
  {
    seq(n, _ => '0')
  }

  /** Reading back the digits of `n` gives `n`. */
  lemma {:induction false} NatDigitsValue(n: nat)
    ensures DigitsValue(NatDigits(n)) == n
    decreases n
  {
    if n >= 10 {
      var s := NatDigits(n);
      assert s[..|s| - 1] == NatDigits(n / 10);
      NatDigitsValue(n / 10);
    }
  }

  /** The value of a concatenation of digit strings. */
  lemma {:induction false} DigitsValueAppend(a: string, b: string)
    requires AllDigits(a) && AllDigits(b)
    ensures AllDigits(a + b)
    ensures DigitsValue(a + b) == DigitsValue(a) * Pow(10, |b|) + DigitsValue(b)
    decreases |b|
  {
    if |b| == 0 {
      assert a + b == a;
    } else {
      var b' := b[..|b| - 1];
      assert (a + b)[..|a + b| - 1] == a + b';
      DigitsValueAppend(a, b');
      var x := b[|b| - 1] as int - '0' as int;
      assert (a + b)[|a + b| - 1] == b[|b| - 1];
      assert DigitsValue(a + b) == DigitsValue(a + b') * 10 + x;
      assert DigitsValue(b) == DigitsValue(b') * 10 + x;
      assert Pow(10, |b|) == 10 * Pow(10, |b'|);
      ShiftDigit(DigitsValue(a), Pow(10, |b'|), DigitsValue(b'), x);
    }
  }

  /** Appending a digit `x` multiplies the value by ten and adds `x`. */
  lemma ShiftDigit(v: int, p: int, w: int, x: int)
    ensures (v * p + w) * 10 + x == v * (10 * p) + (w * 10 + x)
  {
  }

  /** Leading zeros do not change the value of a digit string. */
  lemma ZerosValue(n: nat, d: string)
    requires AllDigits(d)
    ensures AllDigits(Zeros(n) + d) && DigitsValue(Zeros(n) + d) == DigitsValue(d)
  {
    ZerosAreZero(n);
    DigitsValueAppend(Zeros(n), d);
  }

  lemma {:induction false} ZerosAreZero(n: nat)
    ensures DigitsValue(Zeros(n)) == 0
    decreases n
  {
    if n > 0 {
      assert Zeros(n)[..n - 1] == Zeros(n - 1);
      ZerosAreZero(n - 1);
    }
  }

  /** The position of the first `c` in `s`, or `|s|` when there is none. */
  function IndexOf(s: string, c: char): (i: nat)
    ensures i <= |s|
    ensures i < |s| ==> s[i] == c
    ensures forall j :: 0 <= j < i ==> s[j] != c
    decreases |s|
  {
    if |s| == 0 then 0
    else if s[0] == c then 0
    else 1 + IndexOf(s[1..], c)
  }

  /** Whether a numeral is negative, and its text after any sign. */
  function SplitSign(s: string): (bool, string) {
    if |s| > 0 && (s[0] == '-' || s[0] == '+') then (s[0] == '-', s[1..]) else (false, s)
  }

  /** The text before the first point and the text after it ("" when there
      is no point). */
  function SplitPoint(body: string): (string, string) {
    var dot := IndexOf(body, '.');
    (body[..dot], if dot < |body| then body[dot + 1..] else "")
  }

  /** The position of the first exponent mark, `E` or `e`, in `s`, or
      `|s|` when there is none. */
  function ExponentAt(s: string): (i: nat)
    ensures i <= |s|
    ensures i < |s| ==> s[i] == 'E' || s[i] == 'e'
    ensures forall j :: 0 <= j < i ==> s[j] != 'E' && s[j] != 'e'
    decreases |s|
  {
    if |s| == 0 then 0
    else if s[0] == 'E' || s[0] == 'e' then 0
    else 1 + ExponentAt(s[1..])
  }

  /** The text before the first exponent mark, and the text after it when
      there is a mark. */
  function SplitExponent(body: string): (string, Option<string>) {
    var e := ExponentAt(body);
    if e == |body| then (body, None) else (body[..e], Some(body[e + 1..]))
  }

  /** `s` has no exponent mark. */
  predicate NoExponentMark(s: string) {
    forall i :: 0 <= i < |s| ==> s[i] != 'E' && s[i] != 'e'
  }

  /** Text without an exponent mark has no exponent part. */
  lemma SplitExponentNone(s: string)
    requires NoExponentMark(s)
    ensures SplitExponent(s) == (s, None)
  {
  }

  /** Text without a mark, then an exponent mark, splits at that mark. */
  lemma SplitExponentAt(numeral: string, exponent: string)
    requires NoExponentMark(numeral)
    ensures SplitExponent(numeral + "E" + exponent) == (numeral, Some(exponent))
  {
    var body := numeral + "E" + exponent;
    assert body[|numeral|] == 'E';
    assert ExponentAt(body) == |numeral|;
    assert body[..|numeral|] == numeral;
    assert body[|numeral| + 1..] == exponent;
  }

  /** The value of an exponent: an optional sign and at least one digit. */
  function ParseExponent(e: string): Option<int> {
    var (negative, digits) := SplitSign(e);
    if |digits| > 0 && AllDigits(digits) then
      var v: int := DigitsValue(digits);
      Some(if negative then -v else v)
    else
      None
  }

  /** `q * 10^k`, for an exponent `k` of either sign. */
  function ShiftPoint(q: Rat, k: int): Rat {
    if k >= 0 then Fraction(q.num * Pow(10, k), q.den) else Fraction(q.num, q.den * Pow(10, -k))
  }

  /** The exact value of a numeral with the given sign, whole digits and
      fraction digits. */
  function NumeralValue(negative: bool, whole: string, fraction: string): Rat
    requires AllDigits(whole) && AllDigits(fraction)
  {
    var magnitude := DigitsValue(whole) * Pow(10, |fraction|) + DigitsValue(fraction);
    Fraction(if negative then -magnitude else magnitude, Pow(10, |fraction|))
  }

  /** `Fraction(s)` for a decimal numeral: an optional sign, then digits
      with at most one decimal point and at least one digit, then
      optionally an exponent mark and a signed whole exponent. The value is
      exact; anything else is rejected (Python raises ValueError). */
  function ParseFraction(s: string): Option<Rat> {
    var (negative, body) := SplitSign(s);
    var (numeral, exponent) := SplitExponent(body);
    ParseNumeral(negative, numeral, exponent)
  }

  /** The value of an unsigned numeral with at most one point, and an
      optional exponent text, under the given sign. */
  function ParseNumeral(negative: bool, numeral: string, exponent: Option<string>): Option<Rat> {
    var (whole, fraction) := SplitPoint(numeral);
    if !(AllDigits(whole) && AllDigits(fraction) && (|whole| > 0 || |fraction| > 0)) then
      None
    else if exponent.None? then
      Some(NumeralValue(negative, whole, fraction))
    else
      match ParseExponent(exponent.value)
      case None => None
      case Some(k) => Some(ShiftPoint(NumeralValue(negative, whole, fraction), k))
  }

  /** `n / d` rounded to an integer, half to even. */
  function RoundHalfEven(n: nat, d: nat): (c: nat)
    requires d > 0
    ensures 2 * Dist(c * d, n) <= d
  {
    var q := n / d;
    var r := n % d;
    assert n == q * d + r;
    assert (q + 1) * d == q * d + d;
    if 2 * r > d then q + 1
    else if 2 * r < d then q
    else if q % 2 == 0 then q
    else q + 1
  }

  /** The half-even quotient is a nearest integer to `n / d`, and on an
      exact tie it is the even one. */
  lemma RoundHalfEvenIsNearest(n: nat, d: nat, j: int)
    requires d > 0
    ensures Dist(RoundHalfEven(n, d) * d, n) <= Dist(j * d, n)
    ensures 2 * Dist(RoundHalfEven(n, d) * d, n) == d ==> RoundHalfEven(n, d) % 2 == 0
  {
    var q := n / d;
    var r := n % d;
    assert n == q * d + r;
    assert (q + 1) * d == q * d + d;
    if j <= q {
      MulMonotone(j, q, d);
    } else {
      MulMonotone(q + 1, j, d);
    }
  }

  /** Rounding `n / d` never gives more than `n + 1`. */
  lemma RoundHalfEvenBound(n: nat, d: nat)
    requires d > 0
    ensures RoundHalfEven(n, d) <= n + 1
  {
    var q := n / d;
    assert n == q * d + n % d;
    MulMonotone(1, d, q);
  }

  /** The coefficient of `Decimal(x).quantize(Decimal(10) ** -places)`:
      `|x| * 10^places` rounded to an integer, half to even. */
  function QuantizeCoefficient(x: Rat, places: nat): (c: nat)
    ensures 2 * Dist(c * x.den, Abs(x).num * Pow(10, places)) <= x.den
  {
    RoundHalfEven(Abs(x).num * Pow(10, places), x.den)
  }

  /** `str(Decimal)` for the value `coeff × 10^-places` (sign given apart,
      so that a negative value quantized to zero keeps its minus sign):
      plain notation while the adjusted exponent is at least -6, scientific
      notation with an "E" exponent below that. */
  function DecimalString(negative: bool, coeff: nat, places: nat): string {
    var d := NatDigits(coeff);
    var sign := if negative then "-" else "";
    if IsPlain(coeff, places) then
      sign + PlainDigits(d, places)
    else
      sign + ScientificMantissa(d) + "E-" + NatDigits(places + 1 - |d|)
  }

  /** The digits with a point after the first one (no point for a single
      digit): the part `str(Decimal)` writes before an exponent. */
  function ScientificMantissa(d: string): string
    requires |d| > 0
  {
    [d[0]] + (if |d| > 1 then "." + d[1..] else "")
  }

  /** Whether `str(Decimal)` writes `coeff × 10^-places` without exponent. */
  predicate IsPlain(coeff: nat, places: nat) {
    |NatDigits(coeff)| - 1 - places >= -6
  }

  /** The digits `d` with a decimal point inserted `places` from the right,
      padded with a leading "0." and zeros when there are too few digits. */
  function PlainDigits(d: string, places: nat): (s: string)
    requires |d| > 0 && AllDigits(d)
    ensures places == 0 ==> s == d
    ensures places > 0 ==> |s| > places && s[|s| - places - 1] == '.'
    ensures places > 0 ==> AllDigits(s[..|s| - places - 1]) && AllDigits(s[|s| - places..])
    ensures IsDigit(s[0])
  {
    if places == 0 then d
    else if |d| > places then d[..|d| - places] + "." + d[|d| - places..]
    else "0." + Zeros(places - |d|) + d
  }
}

=== FILE: display.dfy ===
/** `Size.__str__`: the components of the size under the configured floor
    and unit system, the magnitude formatted with the configured places and
    stripping, then a space, the unit's abbreviation and "B". */
module SizeDisplay {
  import opened Rationals
  import opened Errors
  import opened Constants
  import opened Config
  import opened Decimals
  import opened Util
  import opened FormatProperties
  import opened Sizes
  import opened SizeComponents

  /** `str(s)` with the display configuration `cfg`. Components come
      first, so a negative floor is reported before a negative number of
      places. */
  function Str(s: Size, cfg: StrConfig): (r: Result<string>)
    ensures IsNegative(cfg.minValue) ==> r == Err(SizeValueError("min_value"))
    ensures !IsNegative(cfg.minValue) && cfg.maxPlaces < 0 ==> r == Err(SizeValueError("max_places"))
    ensures r.Ok? ==> !IsNegative(cfg.minValue) && cfg.maxPlaces >= 0
    ensures r.Ok? ==> var u := Components(s, cfg.minValue, cfg.binaryUnits).value.1;
              |r.value| > |UnitString(u)| && r.value[|r.value| - |UnitString(u)| - 1..] == " " + UnitString(u)
  {
    var (m, u) :- Components(s, cfg.minValue, cfg.binaryUnits);
    var text :- FormatMagnitude(m, cfg.maxPlaces, cfg.strip);
    EndsWithUnit(text, UnitString(u));
    Ok(text + " " + UnitString(u))
  }

  lemma EndsWithUnit(text: string, unit: string)
    ensures var s := text + " " + unit;
            |s| > |unit| && s[|s| - |unit| - 1..] == " " + unit
  {
    var s := text + " " + unit;
    assert s[|s| - |unit| - 1..] == s[|text|..];
  }

  /** The magnitude `str(s)` shows, in the unit `components` chooses. */
  function Shown(s: Size, cfg: StrConfig): Rat
    requires !IsNegative(cfg.minValue)
  {
    Components(s, cfg.minValue, cfg.binaryUnits).value.0
  }

  /** The unit `str(s)` names. */
  function ShownUnit(s: Size, cfg: StrConfig): Unit
    requires !IsNegative(cfg.minValue)
  {
    Components(s, cfg.minValue, cfg.binaryUnits).value.1
  }

  /** A successful `str(s)` is the formatted magnitude, a space and the
      unit string. */
  lemma StrParts(s: Size, cfg: StrConfig)
    requires Str(s, cfg).Ok?
    ensures FormatMagnitude(Shown(s, cfg), cfg.maxPlaces, cfg.strip).Ok?
    ensures Str(s, cfg).value
         == FormatMagnitude(Shown(s, cfg), cfg.maxPlaces, cfg.strip).value + " " + UnitString(ShownUnit(s, cfg))
  {
  }

  /** The number in `str(s)`, without stripping, reads back as a fraction
      with exactly `max_places` digits which, multiplied by the unit's
      factor, is within half a unit in the last place of the byte count:
      `|y * factor - n| <= factor / 2 / 10^k`. Written without exponent
      (always so for at most six places) it shows exactly `max_places`
      digits after its point. */
  lemma StrReadsBack(s: Size, cfg: StrConfig)
    requires Str(s, cfg).Ok? && !cfg.strip
    ensures var text := FormatMagnitude(Shown(s, cfg), cfg.maxPlaces, false).value;
            var y := ParseFraction(text);
            var u := ShownUnit(s, cfg);
            && Str(s, cfg).value == text + " " + UnitString(u)
            && (cfg.maxPlaces <= 6 || WrittenPlain(Shown(s, cfg), cfg.maxPlaces) ==> HasExactPlaces(text, cfg.maxPlaces))
            && y.Some? && y.value.den == Pow(10, cfg.maxPlaces)
            && 2 * Dist(y.value.num * u.factor, s.bytes * Pow(10, cfg.maxPlaces)) <= u.factor
  {
    var m := Shown(s, cfg);
    StrParts(s, cfg);
    assert FormatMagnitude(m, cfg.maxPlaces, false).value == Render(m, cfg.maxPlaces, false);
    if cfg.maxPlaces <= 6 || WrittenPlain(m, cfg.maxPlaces) {
      RenderExactPlaces(m, cfg.maxPlaces);
    }
    FormatHalfUnitAccuracy(m, cfg.maxPlaces);
  }

  /** With stripping, the digits of the number in `str(s)` before any
      exponent never end in a point, nor in a zero while they have a
      point; the exponent is that of the unstripped number, and the number
      reads back as the same value as the unstripped one. */
  lemma StrStrippedReadsBack(s: Size, cfg: StrConfig)
    requires Str(s, cfg).Ok? && cfg.strip
    ensures FormatMagnitude(Shown(s, cfg), cfg.maxPlaces, false).Ok?
    ensures var text := FormatMagnitude(Shown(s, cfg), cfg.maxPlaces, true).value;
            var plain := FormatMagnitude(Shown(s, cfg), cfg.maxPlaces, false).value;
            var digits := text[..ExponentAt(text)];
            && Str(s, cfg).value == text + " " + UnitString(ShownUnit(s, cfg))
            && |digits| > 0 && digits[|digits| - 1] != '.' && ('.' in digits ==> digits[|digits| - 1] != '0')
            && text[ExponentAt(text)..] == plain[ExponentAt(plain)..]
            && ParseFraction(text).Some? && ParseFraction(plain).Some?
            && Eq(ParseFraction(text).value, ParseFraction(plain).value)
  {
    StrParts(s, cfg);
    FormatStrippedReadsBack(Shown(s, cfg), cfg.maxPlaces);
  }

  /** Every size of fewer than 10^25 bytes has a display string under the
      default configuration. */
  lemma DefaultStrDefined(s: Size)
    requires Absolute(s).bytes < 10_000_000_000_000_000_000_000_000
    ensures Str(s, DefaultConfig).Ok?
  {
    var m := Shown(s, DefaultConfig);
    assert Abs(m).num == Absolute(s).bytes;
    RoundHalfEvenBound(Abs(m).num * Pow(10, 2), m.den);
    assert Pow(10, 2) == 100;
    PrecisionLimit();
  }
}

=== FILE: errors.dfy ===
/** Failure causes raised by the size engine, and the result type that
    carries them in place of Python exceptions. */
module Errors {

  /** The exceptions the core can raise. `SizeValueError` carries the name of
      the offending parameter ("value", "units", "factor", "min_value",
      "max_places"); the other two size errors are the byte-power error and
      the builtin division by zero; `DecimalInvalidOperation` is the signal
      Python's decimal module raises when a quantized or integer-divided
      result needs more digits than the default context's precision. */
  datatype SizeError =
    | SizeValueError(param: string)
    | SizePowerResultError
    | ZeroDivisionError
    | DecimalInvalidOperation

  /** Either a value or the exception the operation raised. */
  datatype Result<+T> = Ok(value: T) | Err(error: SizeError) {

    predicate IsFailure() {
      Err?
    }

    function PropagateFailure<U>(): Result<U>
      requires Err?
    {
      Err(error)
    }

    function Extract(): T
      requires Ok?
    {
      value
    }
  }

  datatype Option<+T> = None | Some(value: T)
}

=== FILE: format_properties.dfy ===
/** What a rendered magnitude means: reading the text `format_magnitude`
    produces back as a fraction gives the quantized value, which lies
    within half a unit in the last place of the exact one, and stripping
    trailing zeros does not change that value. */
module FormatProperties {
  import opened Rationals
  import opened Errors
  import opened Decimals
  import opened Util

  function SignText(negative: bool): string {
    if negative then "-" else ""
  }

  function Signed(negative: bool, m: int): int {
    if negative then -m else m
  }

  lemma SplitSignText(negative: bool, w: string)
    requires |w| > 0 && IsDigit(w[0])
    ensures SplitSign(SignText(negative) + w) == (negative, w)
  {
    if negative {
      assert (SignText(negative) + w)[1..] == w;
    } else {
      assert SignText(negative) + w == w;
    }
  }

  lemma SplitPointText(w: string, f: string)
    requires AllDigits(w)
    ensures SplitPoint(w + "." + f) == (w, f)
  {
    var body := w + "." + f;
    assert body[|w|] == '.';
    assert IndexOf(body, '.') == |w|;
    assert body[..|w|] == w;
    assert body[|w| + 1..] == f;
  }

  lemma SplitPointNone(w: string)
    requires AllDigits(w)
    ensures SplitPoint(w) == (w, "")
  {
    assert IndexOf(w, '.') == |w|;
    assert w[..|w|] == w;
  }

  /** A signed numeral with a point reads back as its digits over a power
      of ten. */
  lemma ParsePointed(negative: bool, w: string, f: string)
    requires |w| > 0 && AllDigits(w) && AllDigits(f)
    ensures ParseFraction(SignText(negative) + (w + "." + f)) == Some(NumeralValue(negative, w, f))
  {
    SplitSignText(negative, w + "." + f);
    PointedNoMark(w, f);
    SplitExponentNone(w + "." + f);
    SplitPointText(w, f);
  }

  /** Digits around a point contain no exponent mark. */
  lemma PointedNoMark(w: string, f: string)
    requires AllDigits(w) && AllDigits(f)
    ensures NoExponentMark(w + "." + f)
  {
    var s := w + "." + f;
    forall i | 0 <= i < |s|
      ensures s[i] != 'E' && s[i] != 'e'
    {
      if i < |w| {
        assert s[i] == w[i];
      } else if i > |w| {
        assert s[i] == f[i - |w| - 1];
      }
    }
  }

  /** A signed numeral without a point reads back as an integer. */
  lemma ParseWhole(negative: bool, w: string)
    requires |w| > 0 && AllDigits(w)
    ensures ParseFraction(SignText(negative) + w) == Some(NumeralValue(negative, w, ""))
  {
    SplitSignText(negative, w);
    assert NoExponentMark(w);
    SplitExponentNone(w);
    SplitPointNone(w);
  }

  /** A numeral followed by an exponent mark and an exponent reads as the
      numeral's value with the point moved by the exponent. */
  lemma ParseExponentForm(negative: bool, numeral: string, exponent: string, k: int)
    requires |numeral| > 0 && IsDigit(numeral[0]) && NoExponentMark(numeral)
    requires ParseFraction(SignText(negative) + numeral).Some?
    requires ParseExponent(exponent) == Some(k)
    ensures ParseFraction(SignText(negative) + numeral + "E" + exponent)
         == Some(ShiftPoint(ParseFraction(SignText(negative) + numeral).value, k))
  {
    var body := numeral + "E" + exponent;
    assert SignText(negative) + numeral + "E" + exponent == SignText(negative) + body;
    assert body[0] == numeral[0];
    ParseSigned(negative, body);
    SplitExponentAt(numeral, exponent);
    ParseSigned(negative, numeral);
    SplitExponentNone(numeral);
    ShiftedNumeral(negative, numeral, exponent, k);
  }

  /** `-k` written as `str(int)` writes it reads back as `-k`. */
  lemma NegativeExponent(k: nat)
    ensures ParseExponent("-" + NatDigits(k)) == Some(-(k as int))
  {
    NatDigitsValue(k);
    assert SplitSign("-" + NatDigits(k)) == (true, NatDigits(k));
  }

  /** A signed numeral reads back through its unsigned part. */
  lemma ParseSigned(negative: bool, body: string)
    requires |body| > 0 && IsDigit(body[0])
    ensures ParseFraction(SignText(negative) + body)
         == ParseNumeral(negative, SplitExponent(body).0, SplitExponent(body).1)
  {
    SplitSignText(negative, body);
  }

  lemma ShiftedNumeral(negative: bool, numeral: string, exponent: string, k: int)
    requires ParseExponent(exponent) == Some(k)
    requires ParseNumeral(negative, numeral, None).Some?
    ensures ParseNumeral(negative, numeral, Some(exponent))
         == Some(ShiftPoint(ParseNumeral(negative, numeral, None).value, k))
  {
  }

  /** A plain rendering with places splits into a whole part and exactly
      `places` fraction digits that together spell the coefficient. */
  lemma PlainDigitsParts(d: string, places: nat) returns (w: string, f: string)
    requires |d| > 0 && AllDigits(d) && places > 0
    ensures PlainDigits(d, places) == w + "." + f
    ensures |w| > 0 && AllDigits(w) && AllDigits(f) && |f| == places
    ensures DigitsValue(w) * Pow(10, places) + DigitsValue(f) == DigitsValue(d)
  {
    if |d| > places {
      w, f := d[..|d| - places], d[|d| - places..];
      assert d == w + f;
      DigitsValueAppend(w, f);
    } else {
      w, f := "0", Zeros(places - |d|) + d;
      ZerosValue(places - |d|, d);
      assert DigitsValue(w) == 0 by {
        assert w[..0] == "";
      }
    }
  }

  /** Reading back a `str(Decimal)` rendering, plain or with an exponent,
      gives the signed coefficient over 10^places. */
  lemma DecimalStringReadsBack(negative: bool, c: nat, places: nat)
    ensures ParseFraction(DecimalString(negative, c, places))
         == Some(Fraction(Signed(negative, c), Pow(10, places)))
  {
    if IsPlain(c, places) {
      PlainReadsBack(negative, c, places);
    } else {
      ScientificReadsBack(negative, c, places);
    }
  }

  lemma PlainReadsBack(negative: bool, c: nat, places: nat)
    requires IsPlain(c, places)
    ensures ParseFraction(DecimalString(negative, c, places))
         == Some(Fraction(Signed(negative, c), Pow(10, places)))
  {
    var t := PlainForm(negative, c, places);
  }

  /** The text of the plain form, and the value it reads back as. */
  lemma PlainForm(negative: bool, c: nat, places: nat) returns (t: string)
    requires IsPlain(c, places)
    ensures DecimalString(negative, c, places) == t
    ensures ParseFraction(t) == Some(Fraction(Signed(negative, c), Pow(10, places)))
  {
    var d := NatDigits(c);
    NatDigitsValue(c);
    t := SignText(negative) + PlainDigits(d, places);
    if places == 0 {
      assert t == SignText(negative) + d;
      ParseWhole(negative, d);
      NumeralValueOf(negative, d, "", c);
    } else {
      var w, f := PlainDigitsParts(d, places);
      ParsePointed(negative, w, f);
      NumeralValueOf(negative, w, f, c);
    }
  }

  /** The exponent form `d.ddd E-k` of the coefficient's digits reads back
      as the coefficient over 10^places: the mantissa carries `|d| - 1`
      places and the exponent the rest. */
  lemma ScientificReadsBack(negative: bool, c: nat, places: nat)
    requires !IsPlain(c, places)
    ensures ParseFraction(DecimalString(negative, c, places))
         == Some(Fraction(Signed(negative, c), Pow(10, places)))
  {
    var d := NatDigits(c);
    ScientificText(negative, c, places);
    MantissaReadsBack(negative, c);
    ReadScientific(negative, ScientificMantissa(d), Signed(negative, c), |d| - 1, places + 1 - |d|, places);
  }

  /** A mantissa worth `num / 10^a` followed by "E-e" reads back as
      `num / 10^(a + e)`. */
  lemma ReadScientific(negative: bool, numeral: string, num: int, a: nat, e: nat, p: nat)
    requires |numeral| > 0 && IsDigit(numeral[0]) && NoExponentMark(numeral)
    requires ParseFraction(SignText(negative) + numeral) == Some(Fraction(num, Pow(10, a)))
    requires a + e == p
    ensures ParseFraction(SignText(negative) + numeral + "E" + ("-" + NatDigits(e)))
         == Some(Fraction(num, Pow(10, p)))
  {
    NegativeExponent(e);
    ParseExponentForm(negative, numeral, "-" + NatDigits(e), -(e as int));
    ShiftLeftPow(num, a, e, p);
  }

  lemma ScientificText(negative: bool, c: nat, places: nat)
    requires !IsPlain(c, places)
    ensures |NatDigits(c)| <= places + 1
    ensures DecimalString(negative, c, places)
         == SignText(negative) + ScientificMantissa(NatDigits(c)) + "E" + ("-" + NatDigits(places + 1 - |NatDigits(c)|))
  {
  }

  lemma ShiftLeftPow(num: int, a: nat, e: nat, p: nat)
    requires a + e == p
    ensures ShiftPoint(Fraction(num, Pow(10, a)), -(e as int)) == Fraction(num, Pow(10, p))
  {
    PowAdd(10, a, e);
  }

  /** The mantissa of the exponent form reads back as the coefficient with
      the point after its first digit. */
  lemma MantissaReadsBack(negative: bool, c: nat)
    ensures var d := NatDigits(c);
      && |d| > 0 && IsDigit(d[0]) && NoExponentMark(ScientificMantissa(d))
      && ParseFraction(SignText(negative) + ScientificMantissa(d))
         == Some(Fraction(Signed(negative, c), Pow(10, |d| - 1)))
  {
    var d := NatDigits(c);
    NatDigitsValue(c);
    var head, rest := [d[0]], d[1..];
    assert d == head + rest;
    DigitsValueAppend(head, rest);
    var numeral := ScientificMantissa(d);
    if |d| > 1 {
      assert numeral == head + "." + rest;
      PointedNoMark(head, rest);
      ParsePointed(negative, head, rest);
      NumeralValueOf(negative, head, rest, c);
    } else {
      assert numeral == head && rest == "";
      ParseWhole(negative, head);
      NumeralValueOf(negative, head, "", c);
    }
  }

  lemma NumeralValueOf(negative: bool, w: string, f: string, c: nat)
    requires AllDigits(w) && AllDigits(f)
    requires DigitsValue(w) * Pow(10, |f|) + DigitsValue(f) == c
    ensures NumeralValue(negative, w, f) == Fraction(Signed(negative, c), Pow(10, |f|))
  {
  }

  /** Reading back an unstripped rendering, plain or with an exponent,
      gives the signed quantized coefficient over 10^places. */
  lemma RenderReadsBack(x: Rat, places: nat)
    ensures ParseFraction(Render(x, places, false))
         == Some(Fraction(Signed(IsNegative(x), QuantizeCoefficient(x, places)), Pow(10, places)))
  {
    var c := QuantizeCoefficient(x, places);
    DecimalStringShape(IsNegative(x), c, places);
    DecimalStringReadsBack(IsNegative(x), c, places);
  }

  /** Half-unit accuracy: the value an unstripped rendering reads back as
      lies within half a unit in the last place of the exact magnitude,
      that is |y - x| <= 1/2 * 10^-places; it reaches that bound only on an
      exact tie, where the last digit kept is even. */
  lemma FormatHalfUnitAccuracy(x: Rat, places: nat)
    requires FormatMagnitude(x, places, false).Ok?
    ensures var y := ParseFraction(FormatMagnitude(x, places, false).value);
            && y.Some? && y.value.den == Pow(10, places)
            && 2 * Dist(y.value.num * x.den, x.num * Pow(10, places)) <= x.den
            && (2 * Dist(y.value.num * x.den, x.num * Pow(10, places)) == x.den ==> y.value.num % 2 == 0)
  {
    assert FormatMagnitude(x, places, false).value == Render(x, places, false);
    RenderReadsBack(x, places);
    var c := QuantizeCoefficient(x, places);
    var p := Pow(10, places);
    MulMonotone(0, Abs(x).num, p);
    var a: nat := Abs(x).num * p;
    RoundHalfEvenIsNearest(a, x.den, 0);
    SignedNumerator(x, p);
    SignedDist(IsNegative(x), c, x.den, a);
  }

  lemma SignedNumerator(x: Rat, p: int)
    ensures x.num * p == Signed(IsNegative(x), Abs(x).num * p)
  {
  }

  lemma SignedDist(negative: bool, c: int, den: int, a: int)
    ensures Dist(Signed(negative, c) * den, Signed(negative, a)) == Dist(c * den, a)
    ensures Signed(negative, c) % 2 == 0 <==> c % 2 == 0
  {
    if negative {
      assert (-c) * den == -(c * den);
    }
  }

  /** Stripping zeros from a numeral with a point removes trailing zeros
      of its fraction digits, then the point if no digit is left. */
  lemma StripPointed(sign: string, w: string, f: string) returns (f': string)
    requires |w| > 0 && AllDigits(w) && AllDigits(f)
    ensures '.' in sign + (w + "." + f)
    ensures StripZeros(sign + (w + "." + f)) == if |f'| == 0 then sign + w else sign + (w + "." + f')
    ensures AllDigits(f') && f == f' + Zeros(|f| - |f'|)
  {
    var head := sign + w;
    assert sign + (w + "." + f) == head + "." + f;
    assert head[|head| - 1] == w[|w| - 1];
    f' := StripAfterPoint(head, f);
    assert head + "." + f' == sign + (w + "." + f');
  }

  /** Stripping zeros from text that ends in a digit, a point and digits
      removes trailing zeros of the fraction digits, then the point if no
      digit is left. */
  lemma StripAfterPoint(head: string, f: string) returns (f': string)
    requires |head| > 0 && IsDigit(head[|head| - 1]) && AllDigits(f)
    ensures '.' in head + "." + f
    ensures StripZeros(head + "." + f) == if |f'| == 0 then head else head + "." + f'
    ensures AllDigits(f') && f == f' + Zeros(|f| - |f'|)
  {
    var a := head + ".";
    assert (a + f)[|head|] == '.';
    f' := StripFractionZeros(a, f);
    if |f'| == 0 {
      assert a + f' == a;
      StripPoint(head);
    } else {
      KeepDigits(a, f');
    }
  }

  lemma StripPoint(head: string)
    requires |head| > 0 && IsDigit(head[|head| - 1])
    ensures RStrip(head + ".", '.') == head
  {
    assert (head + ".")[..|head|] == head;
  }

  lemma KeepDigits(a: string, f: string)
    requires |f| > 0 && IsDigit(f[|f| - 1])
    ensures RStrip(a + f, '.') == a + f
  {
    assert (a + f)[|a + f| - 1] == f[|f| - 1];
  }

  /** Stripping zeros from `a + f`, where `a` ends in a point, only removes
      the trailing zeros of `f`. */
  lemma StripFractionZeros(a: string, f: string) returns (f': string)
    requires |a| > 0 && a[|a| - 1] == '.' && AllDigits(f)
    ensures f' == RStrip(f, '0')
    ensures RStrip(a + f, '0') == a + f'
    ensures AllDigits(f') && f == f' + Zeros(|f| - |f'|)
  {
    f' := RStrip(f, '0');
    assert f == f' + Zeros(|f| - |f'|);
    RStripAppend(a, f, '0');
    assert RStrip(a, '0') == a;
    if |f'| == 0 {
      assert a + f' == a;
    }
  }

  /** `rstrip` of a concatenation strips into the front part only when the
      back part is all stripped characters. */
  lemma {:induction false} RStripAppend(a: string, b: string, c: char)
    ensures RStrip(a + b, c) == if |RStrip(b, c)| == 0 then RStrip(a, c) else a + RStrip(b, c)
    decreases |b|
  {
    if |b| == 0 {
      assert a + b == a;
    } else if b[|b| - 1] == c {
      assert (a + b)[..|a + b| - 1] == a + b[..|b| - 1];
      RStripAppend(a, b[..|b| - 1], c);
    }
  }

  /** Removing `z` trailing zero digits divides the numerator and the
      denominator by 10^z alike. */
  lemma TrailingZerosSameValue(negative: bool, w: string, f': string, z: nat)
    requires AllDigits(w) && AllDigits(f')
    ensures AllDigits(f' + Zeros(z))
    ensures Eq(NumeralValue(negative, w, f' + Zeros(z)), NumeralValue(negative, w, f'))
  {
    var f := f' + Zeros(z);
    ZerosAreZero(z);
    DigitsValueAppend(f', Zeros(z));
    PowAdd(10, |f'|, z);
    var P := Pow(10, |f'|);
    var Z := Pow(10, z);
    var M := DigitsValue(w) * P + DigitsValue(f');
    assert DigitsValue(f) == DigitsValue(f') * Z;
    MagnitudeScales(DigitsValue(w), DigitsValue(f'), P, Z);
    SignedScales(negative, M, Z);
    CrossScale(Signed(negative, M), P, Z);
  }

  lemma MagnitudeScales(a: int, b: int, P: int, Z: int)
    ensures a * (P * Z) + b * Z == (a * P + b) * Z
  {
  }

  lemma SignedScales(negative: bool, M: int, Z: int)
    ensures Signed(negative, M * Z) == Signed(negative, M) * Z
  {
  }

  lemma CrossScale(a: int, P: int, Z: int)
    ensures (a * Z) * P == a * (P * Z)
  {
  }

  lemma {:induction false} PowAdd(base: nat, a: nat, b: nat)
    ensures Pow(base, a + b) == Pow(base, a) * Pow(base, b)
    decreases b
  {
    if b > 0 {
      PowAdd(base, a, b - 1);
      var x, y := Pow(base, a), Pow(base, b - 1);
      assert Pow(base, a + b) == base * (x * y);
      assert Pow(base, b) == base * y;
      assert x * (base * y) == base * (x * y);
    }
  }

  /** Stripping trailing zeros never changes the value a plain
      `str(Decimal)` rendering reads back as. */
  lemma StripKeepsDecimalValue(negative: bool, c: nat, places: nat)
    requires IsPlain(c, places)
    ensures var s := DecimalString(negative, c, places);
            var t := if '.' in s then StripZeros(s) else s;
            && ParseFraction(s).Some? && ParseFraction(t).Some?
            && Eq(ParseFraction(s).value, ParseFraction(t).value)
  {
    var s := DecimalString(negative, c, places);
    var d := NatDigits(c);
    assert s == SignText(negative) + PlainDigits(d, places);
    if places == 0 {
      DecimalStringShape(negative, c, places);
      ParseWhole(negative, d);
    } else {
      var w, f := PlainDigitsParts(d, places);
      assert s == SignText(negative) + (w + "." + f);
      StripPointedKeepsValue(negative, w, f);
    }
  }

  /** Stripping a signed numeral with a point keeps the value it reads as. */
  lemma StripPointedKeepsValue(negative: bool, w: string, f: string)
    requires |w| > 0 && AllDigits(w) && AllDigits(f)
    ensures var s := SignText(negative) + (w + "." + f);
            && '.' in s
            && ParseFraction(s).Some? && ParseFraction(StripZeros(s)).Some?
            && Eq(ParseFraction(s).value, ParseFraction(StripZeros(s)).value)
  {
    ParsePointed(negative, w, f);
    var f' := StripPointed(SignText(negative), w, f);
    TrailingZerosSameValue(negative, w, f', |f| - |f'|);
    if |f'| == 0 {
      ParseWhole(negative, w);
      assert NumeralValue(negative, w, f') == NumeralValue(negative, w, "");
    } else {
      ParsePointed(negative, w, f');
    }
  }

  /** A stripped result of `format_magnitude` has digits before any
      exponent that never end in a point and, while they have a point,
      never end in a zero; it keeps the exponent of the unstripped result
      and reads back as the same value. */
  lemma FormatStrippedReadsBack(x: Rat, places: int)
    requires FormatMagnitude(x, places, true).Ok?
    ensures FormatMagnitude(x, places, false).Ok?
    ensures var text := FormatMagnitude(x, places, true).value;
            var plain := FormatMagnitude(x, places, false).value;
            var m := text[..ExponentAt(text)];
            && |m| > 0 && m[|m| - 1] != '.' && ('.' in m ==> m[|m| - 1] != '0')
            && text[ExponentAt(text)..] == plain[ExponentAt(plain)..]
            && ParseFraction(text).Some? && ParseFraction(plain).Some?
            && Eq(ParseFraction(text).value, ParseFraction(plain).value)
  {
    assert FormatMagnitude(x, places, true).value == Render(x, places, true);
    assert FormatMagnitude(x, places, false).value == Render(x, places, false);
    RenderStrippedShape(x, places);
    StripKeepsValue(x, places);
  }

  /** Stripping trailing zeros from the digits before any exponent never
      changes the value a rendering reads back as. */
  lemma StripKeepsValue(x: Rat, places: nat)
    ensures var plain := ParseFraction(Render(x, places, false));
            var stripped := ParseFraction(Render(x, places, true));
            plain.Some? && stripped.Some? && Eq(plain.value, stripped.value)
  {
    var c := QuantizeCoefficient(x, places);
    var negative := IsNegative(x);
    var s := DecimalString(negative, c, places);
    assert Render(x, places, false) == s;
    assert Render(x, places, true) == StripMantissa(s);
    if IsPlain(c, places) {
      DecimalStringShape(negative, c, places);
      PlainNoExponentMark(negative, c, places);
      StripMantissaPlain(s);
      StripKeepsDecimalValue(negative, c, places);
    } else {
      ScientificStripReadsBack(negative, c, places);
    }
  }

  /** Stripping the mantissa of an exponent form keeps the value it reads
      back as. */
  lemma ScientificStripReadsBack(negative: bool, c: nat, places: nat)
    requires !IsPlain(c, places)
    ensures var s := DecimalString(negative, c, places);
            && ParseFraction(s).Some? && ParseFraction(StripMantissa(s)).Some?
            && Eq(ParseFraction(s).value, ParseFraction(StripMantissa(s)).value)
  {
    var d := NatDigits(c);
    var e: nat := places + 1 - |d|;
    var exponent := "-" + NatDigits(e);
    ScientificText(negative, c, places);
    NegativeExponent(e);
    var head, rest := [d[0]], d[1..];
    if |d| == 1 {
      assert ScientificMantissa(d) == head;
      WholeExponentForm(negative, head, exponent, -(e as int));
    } else {
      assert ScientificMantissa(d) == head + "." + rest;
      StrippedExponentForm(negative, head, rest, exponent, -(e as int));
    }
  }

  /** An exponent form whose mantissa has no point is left alone by
      stripping, and reads back. */
  lemma WholeExponentForm(negative: bool, w: string, exponent: string, k: int)
    requires |w| > 0 && AllDigits(w) && ParseExponent(exponent) == Some(k)
    ensures var t := SignText(negative) + w + "E" + exponent;
            StripMantissa(t) == t && ParseFraction(t).Some?
  {
    var m := SignText(negative) + w;
    SignedNoMark(negative, w);
    NoDots(SignText(negative), w);
    assert m + ("E" + exponent) == SignText(negative) + w + "E" + exponent;
    StripMantissaSplit(m, "E" + exponent);
    ParseWhole(negative, w);
    assert NoExponentMark(w);
    ParseExponentForm(negative, w, exponent, k);
  }

  /** Stripping the mantissa `w.f` of an exponent form keeps the value it
      reads back as. */
  lemma StrippedExponentForm(negative: bool, w: string, f: string, exponent: string, k: int)
    requires |w| > 0 && AllDigits(w) && AllDigits(f) && ParseExponent(exponent) == Some(k)
    ensures var t := SignText(negative) + (w + "." + f) + "E" + exponent;
            && ParseFraction(t).Some? && ParseFraction(StripMantissa(t)).Some?
            && Eq(ParseFraction(t).value, ParseFraction(StripMantissa(t)).value)
  {
    var f' := StripExponentText(negative, w, f, exponent);
    StrippedNumeralReads(negative, w, f');
    PointedNoMark(w, f);
    ParsePointed(negative, w, f);
    ParseExponentForm(negative, w + "." + f, exponent, k);
    ParseExponentForm(negative, StrippedNumeral(w, f'), exponent, k);
    TrailingZerosSameValue(negative, w, f', |f| - |f'|);
    ShiftKeepsEq(NumeralValue(negative, w, f), NumeralValue(negative, w, f'), k);
  }

  /** The text of a stripped exponent form: the mantissa `w.f` loses the
      trailing zeros of `f`, and its point when no digit is left. */
  lemma StripExponentText(negative: bool, w: string, f: string, exponent: string) returns (f': string)
    requires |w| > 0 && AllDigits(w) && AllDigits(f)
    ensures |f'| <= |f| && AllDigits(f') && f == f' + Zeros(|f| - |f'|)
    ensures StripMantissa(SignText(negative) + (w + "." + f) + "E" + exponent)
         == SignText(negative) + StrippedNumeral(w, f') + "E" + exponent
  {
    var m := SignText(negative) + (w + "." + f);
    f' := StripPointed(SignText(negative), w, f);
    var t := SignText(negative) + (w + "." + f) + "E" + exponent;
    assert t == m + ("E" + exponent);
    assert StripMantissa(t) == StripZeros(m) + ("E" + exponent) by {
      PointedNoMark(w, f);
      SignedNoMark(negative, w + "." + f);
      StripMantissaSplit(m, "E" + exponent);
    }
    var n := StrippedNumeral(w, f');
    assert StripZeros(m) == SignText(negative) + n;
    AppendExponent(SignText(negative), n, exponent);
  }

  lemma AppendExponent(sign: string, n: string, exponent: string)
    ensures (sign + n) + ("E" + exponent) == sign + n + "E" + exponent
  {
  }

  /** The mantissa left by stripping: the whole digits, then the point and
      the fraction digits kept, if any. */
  function StrippedNumeral(w: string, f': string): string {
    if |f'| == 0 then w else w + "." + f'
  }

  lemma StrippedNumeralReads(negative: bool, w: string, f': string)
    requires |w| > 0 && AllDigits(w) && AllDigits(f')
    ensures var n := StrippedNumeral(w, f');
            && |n| > 0 && IsDigit(n[0]) && NoExponentMark(n)
            && ParseFraction(SignText(negative) + n) == Some(NumeralValue(negative, w, f'))
  {
    if |f'| == 0 {
      assert NoExponentMark(w);
      ParseWhole(negative, w);
    } else {
      PointedNoMark(w, f');
      ParsePointed(negative, w, f');
    }
  }

  lemma SignedNoMark(negative: bool, s: string)
    requires NoExponentMark(s)
    ensures NoExponentMark(SignText(negative) + s)
  {
    var t := SignText(negative) + s;
    forall i | 0 <= i < |t|
      ensures t[i] != 'E' && t[i] != 'e'
    {
      if i >= |SignText(negative)| {
        assert t[i] == s[i - |SignText(negative)|];
      }
    }
  }

  /** Moving the point keeps equal values equal. */
  lemma ShiftKeepsEq(a: Rat, b: Rat, k: int)
    requires Eq(a, b)
    ensures Eq(ShiftPoint(a, k), ShiftPoint(b, k))
  {
    if k >= 0 {
      var P := Pow(10, k);
      assert (a.num * P) * b.den == (a.num * b.den) * P;
      assert (b.num * P) * a.den == (b.num * a.den) * P;
    } else {
      var P := Pow(10, -k);
      assert a.num * (b.den * P) == (a.num * b.den) * P;
      assert b.num * (a.den * P) == (b.num * a.den) * P;
    }
  }
}

=== FILE: rationals.dfy ===
/** Exact rationals as (numerator, denominator) pairs with a positive
    denominator, standing for Python's `fractions.Fraction`. Values are not
    kept in lowest terms; two rationals are equal when their cross products
    agree. */
module Rationals {

  datatype Fraction = Fraction(num: int, den: int)

  /** A fraction whose denominator is positive. */
  type Rat = f: Fraction | f.den > 0 witness Fraction(0, 1)

  function FromInt(n: int): Rat {
    Fraction(n, 1)
  }

  /** Exact equality of the values the two fractions denote. */
  predicate Eq(a: Rat, b: Rat) {
    a.num * b.den == b.num * a.den
  }

  /** Strict order of the values the two fractions denote. */
  predicate Less(a: Rat, b: Rat) {
    a.num * b.den < b.num * a.den
  }

  predicate IsNegative(a: Rat) {
    a.num < 0
  }

  function Abs(a: Rat): (r: Rat)
    ensures r.den == a.den && r.num >= 0
    ensures r.num == a.num || r.num == -a.num
  {
    Fraction(if a.num < 0 then -a.num else a.num, a.den)
  }

  /** The product of a rational and an integer. */
  function Scale(a: Rat, k: int): Rat {
    Fraction(a.num * k, a.den)
  }

  /** `Fraction(n) / d` for a non-zero integer divisor: the exact quotient,
      with the divisor's sign moved into the numerator. */
  function Quotient(n: int, d: int): (r: Rat)
    requires d != 0
    ensures Eq(Scale(r, d), FromInt(n))
  {
    if d > 0 then Fraction(n, d) else Fraction(-n, -d)
  }

  /** A rational is integral when its denominator divides its numerator
      (the reduced Python fraction then has denominator 1). */
  predicate IsIntegral(a: Rat) {
    a.num % a.den == 0
  }

  /** The greatest integer not above `a` (Python's `math.floor`, and the
      quotient of `divmod(num, den)`). */
  function Floor(a: Rat): (r: int)
    ensures r * a.den <= a.num < r * a.den + a.den
  {
    a.num / a.den
  }

  /** `n` is `a` rounded toward zero: an integer of the sign of `a`, no
      farther from zero than `a` and less than one away from it. */
  predicate TruncatesTo(a: Rat, n: int) {
    if a.num >= 0 then 0 <= n * a.den <= a.num < n * a.den + a.den
    else n * a.den - a.den < a.num <= n * a.den <= 0
  }

  /** `int(Fraction)`: rounding toward zero. */
  function Trunc(a: Rat): (r: int)
    ensures TruncatesTo(a, r)
  {
    if a.num >= 0 then
      var q := Floor(a);
      NonNegativeQuotient(a.num, a.den);
      MulMonotone(0, q, a.den);
      q
    else
      var q := Floor(Fraction(-a.num, a.den));
      NonNegativeQuotient(-a.num, a.den);
      MulMonotone(0, q, a.den);
      assert (-q) * a.den == -(q * a.den);
      -q
  }

  lemma NonNegativeQuotient(n: int, d: int)
    requires n >= 0 && d > 0
    ensures n / d >= 0
  {
  }

  /** Rounding toward zero has exactly one answer, the one `Trunc` gives. */
  lemma TruncUnique(a: Rat, n: int)
    ensures TruncatesTo(a, n) <==> n == Trunc(a)
  {
    var t := Trunc(a);
    if TruncatesTo(a, n) {
      if n < t {
        MulStep(n, t, a.den);
        assert false;
      } else if t < n {
        MulStep(t, n, a.den);
        assert false;
      }
    }
  }

  /** Multiples of `d` by distinct integers are at least `d` apart. */
  lemma MulStep(n: int, t: int, d: nat)
    requires n < t
    ensures n * d + d <= t * d
  {
    MulMonotone(n + 1, t, d);
  }

  lemma MulMonotone(a: int, b: int, d: nat)
    requires a <= b
    ensures a * d <= b * d
  {
  }

  /** Floor division on integers as Python's `//` defines it: the quotient
      is rounded toward negative infinity whatever the divisor's sign. */
  function FloorDiv(a: int, b: int): (q: int)
    requires b != 0
    ensures b > 0 ==> q * b <= a < q * b + b
    ensures b < 0 ==> q * b + b < a <= q * b
  {
    if b > 0 then a / b else (-a) / (-b)
  }

  /** Python's `%` on integers: the remainder has the divisor's sign. */
  function FloorMod(a: int, b: int): (m: int)
    requires b != 0
    ensures b * FloorDiv(a, b) + m == a
    ensures b > 0 ==> 0 <= m < b
    ensures b < 0 ==> b < m <= 0
  {
    a - b * FloorDiv(a, b)
  }

  function Pow(base: nat, exp: nat): (r: nat)
    ensures base > 0 ==> r > 0
  {
    if exp == 0 then 1 else base * Pow(base, exp - 1)
  }

  /** The distance between two integers. */
  function Dist(a: int, b: int): (d: nat)
    ensures d == a - b || d == b - a
  {
    if a >= b then a - b else b - a
  }
}

=== FILE: rounding.dfy ===
/** `Size.roundTo`: snapping a byte count to a multiple of a unit under one
    of the four rounding tags. The fraction rounding it delegates to is
    defined here by the rules the property test of `roundTo` checks: the
    floor and the ceiling are taken from `divmod` of the exact value, and
    the half tags compare the remainder with one half. */
module SizeRounding {
  import opened Rationals
  import opened Errors
  import opened Constants
  import opened Sizes

  /** `round_fraction(x, rounding)`: `x` itself when it is integral;
      otherwise its floor or the next integer up, chosen by the tag. */
  function RoundFraction(x: Rat, rounding: Rounding): (r: int)
    ensures Floor(x) <= r <= Floor(x) + 1
    ensures IsIntegral(x) ==> r * x.den == x.num
  {
    var q := Floor(x);
    var rem := x.num % x.den;
    if rem == 0 then q
    else
      match rounding
      case RoundDown => q
      case RoundUp => q + 1
      case RoundHalfUp => if 2 * rem >= x.den then q + 1 else q
      case RoundHalfDown => if 2 * rem > x.den then q + 1 else q
  }

  /** What each tag means for a fraction: down never exceeds `x`, up never
      falls short of it, both stay within one; the half tags give a nearest
      integer, and on an exact tie HALF_UP goes up and HALF_DOWN down. */
  lemma RoundFractionMeaning(x: Rat, rounding: Rounding, k: int)
    ensures var r := RoundFraction(x, rounding);
            && (rounding == RoundDown ==> r * x.den <= x.num < r * x.den + x.den)
            && (rounding == RoundUp ==> r * x.den - x.den < x.num <= r * x.den)
            && (rounding == RoundHalfUp || rounding == RoundHalfDown ==>
                  Dist(r * x.den, x.num) <= Dist(k * x.den, x.num))
            && (rounding == RoundHalfUp && 2 * Dist(r * x.den, x.num) == x.den ==> r * x.den > x.num)
            && (rounding == RoundHalfDown && 2 * Dist(r * x.den, x.num) == x.den ==> r * x.den < x.num)
  {
    var q := Floor(x);
    var rem := x.num % x.den;
    assert x.num == q * x.den + rem;
    assert (q + 1) * x.den == q * x.den + x.den;
    if k <= q {
      MulMonotone(k, q, x.den);
    } else {
      MulMonotone(q + 1, k, x.den);
    }
  }

  /** `s.roundTo(unit, rounding)`: a negative unit is rejected, a zero one
      gives `Size(0)`, and otherwise the exact value in the unit is rounded
      to an integer and multiplied back. */
  function RoundTo(s: Size, unit: UnitSpec, rounding: Rounding): (r: Result<Size>)
    ensures r.Err? <==> SpecFactor(unit) < 0
    ensures r.Err? ==> r.error == SizeValueError("factor")
    ensures SpecFactor(unit) == 0 ==> r == Ok(Size(0))
    ensures SpecFactor(unit) > 0 ==> Dist(r.value.bytes, s.bytes) < SpecFactor(unit)
  {
    var f := SpecFactor(unit);
    if f < 0 then Err(SizeValueError("factor"))
    else if f == 0 then Ok(Size(0))
    else
      var k := RoundFraction(InUnits(s, f), rounding);
      MulMonotone(Floor(InUnits(s, f)), k, f);
      MulMonotone(k, Floor(InUnits(s, f)) + 1, f);
      Ok(Size(k * f))
  }

  /** The unit count `roundTo` multiplies back by the factor. */
  function Units(s: Size, unit: UnitSpec, rounding: Rounding): int
    requires SpecFactor(unit) > 0
  {
    RoundFraction(InUnits(s, SpecFactor(unit)), rounding)
  }

  /** The property test's expected result, transcribed: `Size(0)` for a
      zero unit; the size itself when its value in the unit is integral;
      otherwise the floor or the ceiling of `divmod` of that value, chosen
      by the tag and, for the half tags, by comparing the remainder with
      one half. */
  function Expected(s: Size, unit: UnitSpec, rounding: Rounding): Size
    requires SpecFactor(unit) >= 0
  {
    var factor := SpecFactor(unit);
    if factor == 0 then Size(0)
    else
      var converted := InUnits(s, factor);
      if IsIntegral(converted) then s
      else
        var q := converted.num / converted.den;
        var r := converted.num % converted.den;
        var ceiling := Size((q + 1) * factor);
        var floor := Size(q * factor);
        var remainder := Fraction(r, converted.den);
        var half := Fraction(1, 2);
        if rounding == RoundUp then ceiling
        else if rounding == RoundDown then floor
        else if Less(half, remainder) then ceiling
        else if Less(remainder, half) then floor
        else if rounding == RoundHalfUp then ceiling
        else floor
  }

  /** `roundTo` gives what the property test expects, for every size,
      non-negative unit and tag. */
  lemma RoundToMatchesTest(s: Size, unit: UnitSpec, rounding: Rounding)
    requires SpecFactor(unit) >= 0
    ensures RoundTo(s, unit, rounding) == Ok(Expected(s, unit, rounding))
  {
    var f := SpecFactor(unit);
    if f > 0 {
      var x := InUnits(s, f);
      assert s.bytes == (s.bytes / f) * f + s.bytes % f;
    }
  }

  /** A product with a positive factor leaves no remainder, and dividing it
      by the factor gives the other factor back. */
  lemma MultipleDivides(k: int, f: int)
    requires f > 0
    ensures (k * f) % f == 0 && (k * f) / f == k
  {
    var q := (k * f) / f;
    var r := (k * f) % f;
    assert (k - q) * f == r;
    MulSign(k - q, f);
  }

  /** For a positive unit the result is a whole number of units, within one
      unit of the size: at most the size when rounding down, at least the
      size when rounding up, and a nearest multiple of the unit under the
      half tags. */
  lemma RoundToNearestMultiple(s: Size, unit: UnitSpec, rounding: Rounding, k: int)
    requires SpecFactor(unit) > 0
    ensures var f, n := SpecFactor(unit), RoundTo(s, unit, rounding).value.bytes;
            && n % f == 0
            && (rounding == RoundDown ==> n <= s.bytes)
            && (rounding == RoundUp ==> n >= s.bytes)
            && (rounding == RoundHalfUp || rounding == RoundHalfDown ==>
                  Dist(n, s.bytes) <= Dist(k * f, s.bytes))
  {
    var f := SpecFactor(unit);
    var u := Units(s, unit, rounding);
    MultipleDivides(u, f);
    RoundFractionMeaning(InUnits(s, f), rounding, k);
  }

  /** Rounding an already rounded size to the same unit, under any tag,
      leaves it unchanged. */
  lemma RoundToIdempotent(s: Size, unit: UnitSpec, first: Rounding, second: Rounding)
    requires SpecFactor(unit) >= 0
    ensures var once := RoundTo(s, unit, first).value;
            RoundTo(once, unit, second) == Ok(once)
  {
    var f := SpecFactor(unit);
    if f > 0 {
      var u := Units(s, unit, first);
      MultipleDivides(u, f);
    }
  }

  /** A size whose value in the unit is integral is left as it is. */
  lemma RoundToExact(s: Size, unit: UnitSpec, rounding: Rounding)
    requires SpecFactor(unit) > 0 && s.bytes % SpecFactor(unit) == 0
    ensures RoundTo(s, unit, rounding) == Ok(s)
  {
    var f := SpecFactor(unit);
    assert s.bytes == (s.bytes / f) * f + s.bytes % f;
  }
}

=== FILE: scenarios.dfy ===
/** Concrete cases from the package's test suite, and two corner cases of
    the display, worked through the model. */
module Scenarios {
  import opened Rationals
  import opened Errors
  import opened Constants
  import opened Config
  import opened Decimals
  import opened Util
  import opened Sizes
  import opened SizeComponents
  import opened SizeRounding
  import opened SizeDisplay
  import opened FormatProperties

  /** A numeral string with a fraction drops the fractional bytes. */
  lemma TextCase()
    ensures New(Text("1024.6"), None) == Ok(Size(1024))
  {
    TextParse();
    TruncUnique(Fraction(10246, 10), 1024);
    assert ScaleFactor(None) == 1;
    assert Scale(Fraction(10246, 10), 1) == Fraction(10246, 10);
  }

  lemma TextParse()
    ensures ParseFraction("1024.6") == Some(Fraction(10246, 10))
  {
    Spells(1024, "1024");
    Spells(6, "6");
    assert Pow(10, 1) == 10;
    ReadsAs(false, "1024", "6", 10246);
    assert SignText(false) + ("1024" + "." + "6") == "1024.6";
  }

  /** A negative fraction of a byte truncates to zero. */
  lemma NegativeTextCase()
    ensures New(Text("-0.5"), None) == Ok(Size(0))
  {
    NegativeTextParse();
    TruncUnique(Fraction(-5, 10), 0);
    assert ScaleFactor(None) == 1;
    assert Scale(Fraction(-5, 10), 1) == Fraction(-5, 10);
  }

  lemma NegativeTextParse()
    ensures ParseFraction("-0.5") == Some(Fraction(-5, 10))
  {
    Spells(0, "0");
    Spells(5, "5");
    assert Pow(10, 1) == 10;
    ReadsAs(true, "0", "5", 5);
    assert SignText(true) + ("0" + "." + "5") == "-0.5";
  }

  /** A string without units counts bytes. */
  lemma WholeTextCase()
    ensures New(Text("1024"), None) == New(Number(FromInt(1)), Some(Named(KiB)))
  {
    Factors();
    Spells(1024, "1024");
    ParseWhole(false, "1024");
    assert "1024" == SignText(false) + "1024";
    assert ParseFraction("1024") == Some(Fraction(1024, 1));
    TruncUnique(Fraction(1024, 1), 1024);
    assert New(Text("1024"), None) == Ok(Size(1024));
    assert ScaleFactor(Some(Named(KiB))) == 1024;
  }

  /** Exact numbers scaled by a unit and truncated toward zero. */
  lemma NumberCases()
    ensures New(Number(Fraction(1, 1025)), Some(Named(KiB))) == Ok(Size(0))
    ensures New(Number(Fraction(1, 1023)), Some(Named(KiB))) == Ok(Size(1))
    ensures New(Number(Fraction(1024, 2)), Some(Named(KiB))) == New(Number(Fraction(1, 2)), Some(Named(MiB)))
  {
    Factors();
    assert KiB.factor == 1024 && MiB.factor == 1048576;
    assert ScaleFactor(Some(Named(KiB))) == 1024;
    assert ScaleFactor(Some(Named(MiB))) == 1048576;
    assert Trunc(Fraction(1024, 1025)) == 0;
    assert Trunc(Fraction(1024, 1023)) == 1;
  }

  /** `Size(0)` as the units is false, so `units or B` falls back to bytes;
      another Size scales by its byte count. */
  lemma ZeroSizeUnitsCase()
    ensures New(Number(Fraction(5, 1)), Some(BySize(Size(0)))) == Ok(Size(5))
    ensures New(Number(Fraction(5, 1)), Some(BySize(Size(3)))) == Ok(Size(15))
  {
  }

  /** A malformed string, a bare unit and a Size with units are refused; a
      Size without units is copied. */
  lemma RefusedCases()
    ensures New(Text("1.1.1"), Some(Named(KiB))) == Err(SizeValueError("value"))
    ensures New(OfUnit(B), None) == Err(SizeValueError("value"))
    ensures New(OfSize(Size(0)), None) == Ok(Size(0))
    ensures New(OfSize(Size(0)), Some(Named(KiB))) == Err(SizeValueError("units"))
  {
    assert ParseFraction("1.1.1").None? by {
      assert SplitSign("1.1.1") == (false, "1.1.1");
      assert IndexOf("1.1.1", '.') == 1 by {
        assert "1.1.1"[1..] == ".1.1";
      }
      assert SplitPoint("1.1.1").1 == "1.1";
      assert !IsDigit("1.1"[1]);
    }
  }

  /** The factors of the units these cases meet. */
  lemma Factors()
    ensures KB.factor == 1000
    ensures KiB.factor == 1024 && MiB.factor == 1048576
    ensures TiB.factor == 1099511627776 && PiB.factor == 1125899906842624
    ensures YiB.factor == 1208925819614629174706176
  {
    LadderContents();
  }

  /** The digits of `n` spell `n`. */
  lemma Spells(n: nat, d: string)
    requires NatDigits(n) == d
    ensures AllDigits(d) && DigitsValue(d) == n
  {
    NatDigitsValue(n);
  }

  /** A written decimal numeral reads as the value of its digits. */
  lemma ReadsAs(negative: bool, w: string, f: string, c: nat)
    requires |w| > 0 && AllDigits(w) && AllDigits(f)
    requires DigitsValue(w) * Pow(10, |f|) + DigitsValue(f) == c
    ensures ParseFraction(SignText(negative) + (w + "." + f)) == Some(Fraction(Signed(negative, c), Pow(10, |f|)))
  {
    ParsePointed(negative, w, f);
    NumeralValueOf(negative, w, f, c);
  }

  /** 9 MiB is shown in MiB under the default floor. */
  lemma ComponentsDefaultFloor()
    ensures Components(Size(9 * 1048576), FromInt(1), true) == Ok((Fraction(9 * 1048576, 1048576), MiB))
  {
    Factors();
  }

  /** Raising the floor to 10 moves 9 MiB down to KiB. */
  lemma ComponentsRaisedFloor()
    ensures Components(Size(9 * 1048576), FromInt(10), true) == Ok((Fraction(9 * 1048576, 1024), KiB))
  {
    Factors();
  }

  /** 1000 bytes are one kB in the decimal system. */
  lemma ComponentsDecimal()
    ensures Components(Size(1000), FromInt(1), false) == Ok((Fraction(1000, 1000), KB))
  {
    Factors();
  }

  /** Fewer bytes than one KiB stay in bytes. */
  lemma ComponentsBytes()
    ensures Components(Size(500), FromInt(1), true) == Ok((Fraction(500, 1), B))
  {
    Factors();
  }

  /** A negative floor is refused. */
  lemma ComponentsNegativeFloor()
    ensures Components(Size(0), FromInt(-1), true) == Err(SizeValueError("min_value"))
  {
  }

  /** Rounding to a unit under each tag, and the negative unit refused. */
  lemma RoundToCases()
    ensures RoundTo(Size(1536), Named(KiB), RoundHalfUp) == Ok(Size(2048))
    ensures RoundTo(Size(1536), Named(KiB), RoundHalfDown) == Ok(Size(1024))
    ensures RoundTo(Size(-1536), Named(KiB), RoundDown) == Ok(Size(-2048))
    ensures RoundTo(Size(-1536), Named(KiB), RoundUp) == Ok(Size(-1024))
    ensures RoundTo(Size(1025), Named(KiB), RoundUp) == Ok(Size(2048))
    ensures RoundTo(Size(1500), BySize(Size(0)), RoundUp) == Ok(Size(0))
    ensures RoundTo(Size(0), BySize(Size(-1)), RoundHalfUp) == Err(SizeValueError("factor"))
  {
    Factors();
  }

  /** `str(s)` once its parts are known: the components under the floor,
      the quantized coefficient within the decimal precision, and the
      rendered number. */
  lemma StrIsAt(s: Size, places: nat, strip: bool, floor: Rat, m: Rat, u: Unit, c: nat, text: string)
    requires Components(s, floor, true) == Ok((m, u))
    requires QuantizeCoefficient(m, places) == c
    requires c < 10_000_000_000_000_000_000_000_000_000
    requires Render(m, places, strip) == text
    ensures Str(s, StrConfig(places, strip, floor, true)) == Ok(text + " " + UnitString(u))
  {
    PrecisionLimit();
  }

  /** The rendering of a non-negative value once its coefficient and its
      `str(Decimal)` text are known. */
  lemma RenderIs(m: Rat, places: nat, strip: bool, c: nat, plain: string, text: string)
    requires !IsNegative(m) && QuantizeCoefficient(m, places) == c
    requires DecimalString(false, c, places) == plain
    requires (if strip && '.' in plain then StripZeros(plain) else plain) == text
    requires strip ==> NoExponentMark(plain)
    ensures Render(m, places, strip) == text
  {
    if strip {
      StripMantissaPlain(plain);
    }
  }

  /** 58929971 bytes show as 56.20 MiB by default. */
  lemma DefaultCase()
    ensures Str(Size(58929971), DefaultConfig) == Ok("56.20 MiB")
  {
    DefaultComponents();
    DefaultCoefficient();
    DefaultRender();
    StrIsAt(Size(58929971), 2, false, FromInt(1), Fraction(58929971, 1048576), MiB, 5620, "56.20");
    DefaultShown();
  }

  lemma DefaultShown()
    ensures "56.20" + " " + UnitString(MiB) == "56.20 MiB"
  {
    assert UnitString(MiB) == "MiB";
  }

  lemma DefaultComponents()
    ensures Components(Size(58929971), FromInt(1), true) == Ok((Fraction(58929971, 1048576), MiB))
  {
    Factors();
  }

  lemma DefaultCoefficient()
    ensures QuantizeCoefficient(Fraction(58929971, 1048576), 2) == 5620
  {
    assert Pow(10, 2) == 100;
    assert 5892997100 == 5619 * 1048576 + 1048556;
    assert RoundHalfEven(5892997100, 1048576) == 5620;
  }

  lemma DefaultRender()
    ensures Render(Fraction(58929971, 1048576), 2, false) == "56.20"
  {
    DefaultCoefficient();
    DefaultDecimal();
    RenderIs(Fraction(58929971, 1048576), 2, false, 5620, "56.20", "56.20");
  }

  lemma DefaultDecimal()
    ensures DecimalString(false, 5620, 2) == "56.20"
  {
    assert NatDigits(5620) == "5620";
    assert PlainDigits("5620", 2) == "56.20";
  }

  /** The empty size shows as 0.00 B by default. */
  lemma ZeroCase()
    ensures Str(Size(0), DefaultConfig) == Ok("0.00 B")
  {
    ZeroComponents();
    ZeroCoefficient();
    ZeroRender();
    StrIsAt(Size(0), 2, false, FromInt(1), Fraction(0, 1), B, 0, "0.00");
    ZeroShown();
  }

  lemma ZeroShown()
    ensures "0.00" + " " + UnitString(B) == "0.00 B"
  {
    assert UnitString(B) == "B";
  }

  lemma ZeroComponents()
    ensures Components(Size(0), FromInt(1), true) == Ok((Fraction(0, 1), B))
  {
  }

  lemma ZeroCoefficient()
    ensures QuantizeCoefficient(Fraction(0, 1), 2) == 0
  {
    assert Pow(10, 2) == 100;
    assert 0 == 0 * 1 + 0;
    assert RoundHalfEven(0, 1) == 0;
  }

  lemma ZeroRender()
    ensures Render(Fraction(0, 1), 2, false) == "0.00"
  {
    ZeroCoefficient();
    ZeroDecimal();
    RenderIs(Fraction(0, 1), 2, false, 0, "0.00", "0.00");
  }

  lemma ZeroDecimal()
    ensures DecimalString(false, 0, 2) == "0.00"
  {
    assert NatDigits(0) == "0";
    assert Zeros(1) == "0";
    assert PlainDigits("0", 2) == "0.00";
  }

  /** A size past the largest unit stays in it: 1024 YiB and one byte show
      as 1024.00 YiB. */
  lemma LargestCase()
    ensures Str(Size(1237940039285380274899124225), DefaultConfig) == Ok("1024.00 YiB")
  {
    LargestComponents();
    LargestCoefficient();
    LargestRender();
    StrIsAt(Size(1237940039285380274899124225), 2, false, FromInt(1), Fraction(1237940039285380274899124225, 1208925819614629174706176), YiB, 102400, "1024.00");
    LargestShown();
  }

  lemma LargestShown()
    ensures "1024.00" + " " + UnitString(YiB) == "1024.00 YiB"
  {
    assert UnitString(YiB) == "YiB";
  }

  lemma LargestComponents()
    ensures Components(Size(1237940039285380274899124225), FromInt(1), true) == Ok((Fraction(1237940039285380274899124225, 1208925819614629174706176), YiB))
  {
    Factors();
  }

  lemma LargestCoefficient()
    ensures QuantizeCoefficient(Fraction(1237940039285380274899124225, 1208925819614629174706176), 2) == 102400
  {
    assert Pow(10, 2) == 100;
    assert 123794003928538027489912422500 == 102400 * 1208925819614629174706176 + 100;
    assert RoundHalfEven(123794003928538027489912422500, 1208925819614629174706176) == 102400;
  }

  lemma LargestRender()
    ensures Render(Fraction(1237940039285380274899124225, 1208925819614629174706176), 2, false) == "1024.00"
  {
    LargestCoefficient();
    LargestDecimal();
    RenderIs(Fraction(1237940039285380274899124225, 1208925819614629174706176), 2, false, 102400, "1024.00", "1024.00");
  }

  lemma LargestDecimal()
    ensures DecimalString(false, 102400, 2) == "1024.00"
  {
    assert NatDigits(102400) == "102400";
    assert PlainDigits("102400", 2) == "1024.00";
  }

  /** With stripping, a whole number of units loses its point. */
  lemma StrippedWholeCase()
    ensures Str(Size(4503599627370496), StrConfig(2, true, FromInt(1), true)) == Ok("4 PiB")
  {
    StrippedWholeComponents();
    StrippedWholeCoefficient();
    StrippedWholeRender();
    StrIsAt(Size(4503599627370496), 2, true, FromInt(1), Fraction(4503599627370496, 1125899906842624), PiB, 400, "4");
    StrippedWholeShown();
  }

  lemma StrippedWholeShown()
    ensures "4" + " " + UnitString(PiB) == "4 PiB"
  {
    assert UnitString(PiB) == "PiB";
  }

  lemma StrippedWholeComponents()
    ensures Components(Size(4503599627370496), FromInt(1), true) == Ok((Fraction(4503599627370496, 1125899906842624), PiB))
  {
    Factors();
  }

  lemma StrippedWholeCoefficient()
    ensures QuantizeCoefficient(Fraction(4503599627370496, 1125899906842624), 2) == 400
  {
    assert Pow(10, 2) == 100;
    assert 450359962737049600 == 400 * 1125899906842624 + 0;
    assert RoundHalfEven(450359962737049600, 1125899906842624) == 400;
  }

  lemma StrippedWholeRender()
    ensures Render(Fraction(4503599627370496, 1125899906842624), 2, true) == "4"
  {
    StrippedWholeCoefficient();
    StrippedWholeDecimal();
    StrippedWholeStrip();
    RenderIs(Fraction(4503599627370496, 1125899906842624), 2, true, 400, "4.00", "4");
  }

  lemma StrippedWholeDecimal()
    ensures DecimalString(false, 400, 2) == "4.00"
  {
    assert NatDigits(400) == "400";
    assert PlainDigits("400", 2) == "4.00";
  }

  lemma StrippedWholeStrip()
    ensures StripZeros("4.00") == "4"
  {
    assert RStrip("4.00", '0') == "4.";
    assert RStrip("4.", '.') == "4";
  }

  /** With stripping, trailing zeros after the point go. */
  lemma StrippedFractionCase()
    ensures Str(Size(13963577770429), StrConfig(2, true, FromInt(1), true)) == Ok("12.7 TiB")
  {
    StrippedFractionComponents();
    StrippedFractionCoefficient();
    StrippedFractionRender();
    StrIsAt(Size(13963577770429), 2, true, FromInt(1), Fraction(13963577770429, 1099511627776), TiB, 1270, "12.7");
    StrippedFractionShown();
  }

  lemma StrippedFractionShown()
    ensures "12.7" + " " + UnitString(TiB) == "12.7 TiB"
  {
    assert UnitString(TiB) == "TiB";
  }

  lemma StrippedFractionComponents()
    ensures Components(Size(13963577770429), FromInt(1), true) == Ok((Fraction(13963577770429, 1099511627776), TiB))
  {
    Factors();
  }

  lemma StrippedFractionCoefficient()
    ensures QuantizeCoefficient(Fraction(13963577770429, 1099511627776), 2) == 1270
  {
    assert Pow(10, 2) == 100;
    assert 1396357777042900 == 1269 * 1099511627776 + 1077521395156;
    assert RoundHalfEven(1396357777042900, 1099511627776) == 1270;
  }

  lemma StrippedFractionRender()
    ensures Render(Fraction(13963577770429, 1099511627776), 2, true) == "12.7"
  {
    StrippedFractionCoefficient();
    StrippedFractionDecimal();
    StrippedFractionStrip();
    RenderIs(Fraction(13963577770429, 1099511627776), 2, true, 1270, "12.70", "12.7");
  }

  lemma StrippedFractionDecimal()
    ensures DecimalString(false, 1270, 2) == "12.70"
  {
    assert NatDigits(1270) == "1270";
    assert PlainDigits("1270", 2) == "12.70";
  }

  lemma StrippedFractionStrip()
    ensures StripZeros("12.70") == "12.7"
  {
    assert RStrip("12.70", '0') == "12.7";
    assert RStrip("12.7", '.') == "12.7";
  }

  /** With stripping, a whole number of bytes is written without a point. */
  lemma StrippedBytesCase()
    ensures Str(Size(255), StrConfig(2, true, FromInt(1), true)) == Ok("255 B")
  {
    StrippedBytesComponents();
    StrippedBytesCoefficient();
    StrippedBytesRender();
    StrIsAt(Size(255), 2, true, FromInt(1), Fraction(255, 1), B, 25500, "255");
    StrippedBytesShown();
  }

  lemma StrippedBytesShown()
    ensures "255" + " " + UnitString(B) == "255 B"
  {
    assert UnitString(B) == "B";
  }

  lemma StrippedBytesComponents()
    ensures Components(Size(255), FromInt(1), true) == Ok((Fraction(255, 1), B))
  {
  }

  lemma StrippedBytesCoefficient()
    ensures QuantizeCoefficient(Fraction(255, 1), 2) == 25500
  {
    assert Pow(10, 2) == 100;
    assert 25500 == 25500 * 1 + 0;
    assert RoundHalfEven(25500, 1) == 25500;
  }

  lemma StrippedBytesRender()
    ensures Render(Fraction(255, 1), 2, true) == "255"
  {
    StrippedBytesCoefficient();
    StrippedBytesDecimal();
    StrippedBytesStrip();
    RenderIs(Fraction(255, 1), 2, true, 25500, "255.00", "255");
  }

  lemma StrippedBytesDecimal()
    ensures DecimalString(false, 25500, 2) == "255.00"
  {
    assert NatDigits(25500) == "25500";
    assert PlainDigits("25500", 2) == "255.00";
  }

  lemma StrippedBytesStrip()
    ensures StripZeros("255.00") == "255"
  {
    assert RStrip("255.00", '0') == "255.";
    assert RStrip("255.", '.') == "255";
  }

  /** A display tie rounds to the even digit: 1152 bytes are exactly 1.125
      KiB and show as 1.12 KiB. */
  lemma DisplayTieCase()
    ensures Str(Size(1152), DefaultConfig) == Ok("1.12 KiB")
  {
    DisplayTieComponents();
    DisplayTieCoefficient();
    DisplayTieRender();
    StrIsAt(Size(1152), 2, false, FromInt(1), Fraction(1152, 1024), KiB, 112, "1.12");
    DisplayTieShown();
  }

  lemma DisplayTieShown()
    ensures "1.12" + " " + UnitString(KiB) == "1.12 KiB"
  {
    assert UnitString(KiB) == "KiB";
  }

  lemma DisplayTieComponents()
    ensures Components(Size(1152), FromInt(1), true) == Ok((Fraction(1152, 1024), KiB))
  {
    Factors();
  }

  lemma DisplayTieCoefficient()
    ensures QuantizeCoefficient(Fraction(1152, 1024), 2) == 112
  {
    assert Pow(10, 2) == 100;
    assert 115200 == 112 * 1024 + 512;
    assert RoundHalfEven(115200, 1024) == 112;
  }

  lemma DisplayTieRender()
    ensures Render(Fraction(1152, 1024), 2, false) == "1.12"
  {
    DisplayTieCoefficient();
    DisplayTieDecimal();
    RenderIs(Fraction(1152, 1024), 2, false, 112, "1.12", "1.12");
  }

  lemma DisplayTieDecimal()
    ensures DecimalString(false, 112, 2) == "1.12"
  {
    assert NatDigits(112) == "112";
    assert PlainDigits("112", 2) == "1.12";
  }

  /** Zero with seven places is written with an exponent, as `str(Decimal)`
      does once the adjusted exponent falls below -6. */
  lemma ExponentCase()
    ensures Str(Size(0), StrConfig(7, false, FromInt(1), true)) == Ok("0E-7 B")
  {
    ExponentComponents();
    ExponentCoefficient();
    ExponentRender();
    StrIsAt(Size(0), 7, false, FromInt(1), Fraction(0, 1), B, 0, "0E-7");
    ExponentShown();
  }

  lemma ExponentShown()
    ensures "0E-7" + " " + UnitString(B) == "0E-7 B"
  {
    assert UnitString(B) == "B";
  }

  lemma ExponentComponents()
    ensures Components(Size(0), FromInt(1), true) == Ok((Fraction(0, 1), B))
  {
  }

  lemma ExponentCoefficient()
    ensures QuantizeCoefficient(Fraction(0, 1), 7) == 0
  {
    assert Pow(10, 7) == 10000000;
    assert 0 == 0 * 1 + 0;
    assert RoundHalfEven(0, 1) == 0;
  }

  lemma ExponentRender()
    ensures Render(Fraction(0, 1), 7, false) == "0E-7"
  {
    ExponentCoefficient();
    ExponentDecimal();
    RenderIs(Fraction(0, 1), 7, false, 0, "0E-7", "0E-7");
  }

  lemma ExponentDecimal()
    ensures DecimalString(false, 0, 7) == "0E-7"
  {
    assert NatDigits(0) == "0";
    assert NatDigits(7) == "7";
    assert !IsPlain(0, 7);
  }

  /** The code strips the exponent's zeros too: 1/2000000000 at eleven
      places is written "5.0E-10", which the code strips to "5.0E-1", a
      value a billion times larger; stripping the mantissa alone gives
      "5E-10". */
  lemma StripBreaksExponent()
    ensures RenderAsWritten(Fraction(1, 2000000000), 11, false) == "5.0E-10"
    ensures RenderAsWritten(Fraction(1, 2000000000), 11, true) == "5.0E-1"
    ensures Render(Fraction(1, 2000000000), 11, true) == "5E-10"
    ensures ParseFraction("5.0E-10") == Some(Fraction(50, 100000000000))
    ensures ParseFraction("5.0E-1") == Some(Fraction(50, 100))
    ensures !Eq(Fraction(50, 100000000000), Fraction(50, 100))
  {
    BrokenAsWritten();
    BrokenIntended();
    BrokenReadsPlain();
    BrokenReadsStripped();
  }

  lemma BrokenAsWritten()
    ensures RenderAsWritten(Fraction(1, 2000000000), 11, false) == "5.0E-10"
    ensures RenderAsWritten(Fraction(1, 2000000000), 11, true) == "5.0E-1"
  {
    BrokenCoefficient();
    BrokenDecimal();
    assert RStrip("5.0E-10", '0') == "5.0E-1";
    assert RStrip("5.0E-1", '.') == "5.0E-1";
  }

  lemma BrokenIntended()
    ensures Render(Fraction(1, 2000000000), 11, true) == "5E-10"
  {
    BrokenCoefficient();
    BrokenDecimal();
    assert "5.0E-10" == "5.0" + "E-10";
    assert NoExponentMark("5.0");
    StripMantissaSplit("5.0", "E-10");
    BrokenStripped();
  }

  lemma BrokenStripped()
    ensures StripZeros("5.0") == "5"
  {
    assert RStrip("5.0", '0') == "5.";
    assert RStrip("5.", '.') == "5";
  }

  lemma BrokenMantissa()
    ensures ParseFraction(SignText(false) + "5.0") == Some(Fraction(50, Pow(10, 1)))
    ensures NoExponentMark("5.0")
  {
    Spells(5, "5");
    Spells(0, "0");
    ReadsAs(false, "5", "0", 50);
    assert "5" + "." + "0" == "5.0";
  }

  lemma BrokenReadsPlain()
    ensures ParseFraction("5.0E-10") == Some(Fraction(50, 100000000000))
  {
    var t := BrokenReads(10, 11);
    assert t == "5.0E-10" by {
      assert NatDigits(10) == "10";
    }
    assert Pow(10, 11) == 100000000000;
  }

  lemma BrokenReadsStripped()
    ensures ParseFraction("5.0E-1") == Some(Fraction(50, 100))
  {
    var t := BrokenReads(1, 2);
    assert t == "5.0E-1" by {
      assert NatDigits(1) == "1";
    }
    assert Pow(10, 2) == 100;
  }

  /** `5.0E-e` reads back as fifty over ten to the `1 + e`. */
  lemma BrokenReads(e: nat, p: nat) returns (t: string)
    requires 1 + e == p
    ensures t == "5.0E-" + NatDigits(e)
    ensures ParseFraction(t) == Some(Fraction(50, Pow(10, p)))
  {
    var digits := NatDigits(e);
    t := SignText(false) + "5.0" + "E" + ("-" + digits);
    assert ParseFraction(t) == Some(Fraction(50, Pow(10, p))) by {
      BrokenMantissa();
      ReadScientific(false, "5.0", 50, 1, e, p);
    }
    assert t == "5.0E-" + digits by {
      assert SignText(false) == "";
    }
  }

  lemma BrokenCoefficient()
    ensures QuantizeCoefficient(Fraction(1, 2000000000), 11) == 50
  {
    assert Pow(10, 11) == 100000000000;
    assert 100000000000 == 50 * 2000000000 + 0;
    assert RoundHalfEven(100000000000, 2000000000) == 50;
  }

  lemma BrokenDecimal()
    ensures DecimalString(false, 50, 11) == "5.0E-10"
  {
    assert NatDigits(50) == "50";
    assert NatDigits(10) == "10";
    assert !IsPlain(50, 11);
    assert ScientificMantissa("50") == "5.0";
  }

  /** In the model, where the formatter takes the exact fraction, a floor
      of zero shows every size in the largest unit, and eleven places then
      reach the exponent form: 604462909807315 bytes are 5.0E-10 YiB before
      stripping. The code's stripping of that magnitude gives "5.0E-1";
      stripping the mantissa alone shows "5E-10 YiB". */
  lemma StripBreaksDisplay()
    ensures Str(Size(604462909807315), StrConfig(11, true, FromInt(0), true)) == Ok("5E-10 YiB")
    ensures RenderAsWritten(Shown(Size(604462909807315), StrConfig(11, true, FromInt(0), true)), 11, true)
         == "5.0E-1"
  {
    DisplayComponents();
    DisplayCoefficient();
    DisplayRender();
    StrIsAt(Size(604462909807315), 11, true, FromInt(0),
            Fraction(604462909807315, 1208925819614629174706176), YiB, 50, "5E-10");
    DisplayShown();
  }

  lemma DisplayShown()
    ensures "5E-10" + " " + UnitString(YiB) == "5E-10 YiB"
  {
    assert UnitString(YiB) == "YiB";
  }

  lemma DisplayRender()
    ensures Render(Fraction(604462909807315, 1208925819614629174706176), 11, true) == "5E-10"
    ensures RenderAsWritten(Fraction(604462909807315, 1208925819614629174706176), 11, true) == "5.0E-1"
  {
    DisplayCoefficient();
    BrokenCoefficient();
    BrokenAsWritten();
    BrokenIntended();
  }

  /** The components of 604462909807315 bytes under floor 0: the value
      in YiB. */
  lemma DisplayComponents()
    ensures Components(Size(604462909807315), FromInt(0), true)
         == Ok((Fraction(604462909807315, 1208925819614629174706176), YiB))
  {
    Factors();
  }

  lemma DisplayCoefficient()
    ensures QuantizeCoefficient(Fraction(604462909807315, 1208925819614629174706176), 11) == 50
  {
    assert Pow(10, 11) == 100000000000;
    assert 60446290980731500000000000 == 50 * 1208925819614629174706176 + 41264691200;
    assert RoundHalfEven(60446290980731500000000000, 1208925819614629174706176) == 50;
  }
}

=== FILE: size_laws.dfy ===
/** Laws of the Size operators: construction round trips, the arithmetic
    identities the in-code comments describe, and the order of Sizes. */
module SizeLaws {
  import opened Rationals
  import opened Errors
  import opened Constants
  import opened Decimals
  import opened FormatProperties
  import opened Sizes

  /** A rational whose numerator is a multiple of its denominator truncates
      to that multiple. */
  lemma TruncOfMultiple(n: int, d: int)
    requires d > 0
    ensures Trunc(Fraction(n * d, d)) == n
  {
    TruncUnique(Fraction(n * d, d), n);
  }

  /** Building a Size from a whole number of bytes keeps it. */
  lemma NewFromInteger(n: int)
    ensures New(Number(FromInt(n)), None) == Ok(Size(n))
  {
    TruncOfMultiple(n, 1);
  }

  /** Building a Size from a written integer, with or without a minus
      sign, gives that many bytes. */
  lemma NewFromNumeral(negative: bool, n: nat)
    ensures New(Text(SignText(negative) + NatDigits(n)), None) == Ok(Size(Signed(negative, n)))
  {
    ParseWhole(negative, NatDigits(n));
    NatDigitsValue(n);
    TruncOfMultiple(Signed(negative, n), 1);
  }

  /** Converting to a positive unit and building a Size back in that unit
      gives the original Size: `Size(s.convertTo(u), u) == s`. */
  lemma ConvertRoundTrip(s: Size, spec: UnitSpec)
    requires SpecFactor(spec) > 0
    ensures ConvertTo(s, Some(spec)).Ok?
    ensures New(Number(ConvertTo(s, Some(spec)).value), Some(spec)) == Ok(s)
  {
    TruncOfMultiple(s.bytes, SpecFactor(spec));
  }

  /** A Size copied into a new Size is the same Size, and the copy refuses
      units. */
  lemma NewFromSize(s: Size, units: UnitSpec)
    ensures New(OfSize(s), None) == Ok(s)
    ensures New(OfSize(s), Some(units)) == Err(SizeValueError("units"))
  {
  }

  /** Negation is an involution and an additive inverse; unary plus is the
      identity; absolute value ignores the sign. */
  lemma UnaryLaws(s: Size)
    ensures Negate(Negate(s)) == s
    ensures UnaryPlus(s) == s
    ensures Absolute(Negate(s)) == Absolute(s)
    ensures Add(s, Negate(s)) == Size(0)
  {
  }

  /** Subtraction undoes addition, and is addition of the negation. */
  lemma AddSubInverse(a: Size, b: Size)
    ensures Sub(Add(a, b), b) == a
    ensures Sub(a, b) == Add(a, Negate(b))
  {
  }

  /** Multiplying by a whole number is exact. */
  lemma MulByInteger(a: Size, k: int)
    ensures Mul(a, Times(FromInt(k))) == Ok(Size(a.bytes * k))
  {
    TruncOfMultiple(a.bytes * k, 1);
  }

  /** `(a / b) * b == a`: multiplying the exact quotient back by the divisor
      returns the dividend. */
  lemma TrueDivRoundTrip(a: Size, b: Size)
    requires b.bytes != 0
    ensures TrueDiv(a, b).Ok?
    ensures Mul(b, Times(TrueDiv(a, b).value)) == Ok(a)
  {
    var q := TrueDiv(a, b).value;
    if b.bytes > 0 {
      TruncOfMultiple(a.bytes, b.bytes);
    } else {
      assert Scale(q, b.bytes) == Fraction(a.bytes * -b.bytes, -b.bytes);
      TruncOfMultiple(a.bytes, -b.bytes);
    }
  }

  /** Products and powers of Sizes have no unit and are refused. */
  lemma NoProductsOfSizes(a: Size, b: Size, e: Rat)
    ensures Mul(a, TimesSize(b)) == Err(SizePowerResultError)
    ensures Power(a, e) == Err(SizePowerResultError)
  {
  }

  /** `divmod` pairs `//` and `%`. */
  lemma DivModAgrees(a: Size, b: Size)
    requires b.bytes != 0
    ensures DivMod(a, b) == Ok((FloorDivide(a, b).value, Modulo(a, b).value))
  {
  }

  /** `divmod` is the only quotient and remainder pair with
      `b * div + rem == a` whose remainder lies between zero and the
      divisor. */
  lemma DivModUnique(a: Size, b: Size, div: int, rem: int)
    requires b.bytes != 0 && b.bytes * div + rem == a.bytes
    requires b.bytes > 0 ==> 0 <= rem < b.bytes
    requires b.bytes < 0 ==> b.bytes < rem <= 0
    ensures DivMod(a, b) == Ok((div, Size(rem)))
  {
    var (d0, r0) := DivMod(a, b).value;
    var e := div - d0;
    assert e * b.bytes == r0.bytes - rem;
    if b.bytes > 0 {
      MulSign(e, b.bytes);
    } else {
      assert e * -b.bytes == rem - r0.bytes;
      MulSign(e, -b.bytes);
    }
  }

  /** The floor quotient by an exact number and the remainder rebuild the
      dividend, as the in-code comment on `__floordiv__` promises:
      `q * floor + rem == a`, exactly before the remainder is truncated. */
  lemma DivModScalarAgrees(a: Size, q: Rat)
    requires q.num != 0
    ensures DivModScalar(a, q) == Ok((FloorDivScalarFloored(a, q).value, ModScalar(a, q).value))
    ensures var div := FloorDivScalarFloored(a, q).value.bytes;
            Eq(Fraction(a.bytes, 1), Fraction(div * q.num + RemainderNumerator(a, q, div), q.den))
  {
  }

  /** Where the byte count is non-negative and the divisor positive, the
      decimal `//` that the code uses agrees with the floor quotient. */
  lemma FloorDivScalarAgreesOnNonNegative(a: Size, k: int)
    requires a.bytes >= 0 && k > 0 && a.bytes < Pow(10, Precision) * k
    ensures FloorDivScalar(a, k) == FloorDivScalarFloored(a, FromInt(k))
  {
    var t := FloorDivScalar(a, k).value.bytes;
    var f := FloorDivScalarFloored(a, FromInt(k)).value.bytes;
    assert Quotient(a.bytes, k) == Fraction(a.bytes, k);
    var e := t - f;
    assert e * k == RemainderNumerator(a, FromInt(k), f) - (a.bytes - t * k);
    MulSign(e, k);
  }

  /** The counterexample to the identity for a negative byte count:
      `Size(-3) // 2` is `Size(-1)`, `divmod` gives `Size(-2)` and
      `Size(1)`, and `2 * -1 + 1` is not `-3`. */
  lemma FloorDivScalarDisagrees()
    ensures FloorDivScalar(Size(-3), 2) == Ok(Size(-1))
    ensures DivModScalar(Size(-3), FromInt(2)) == Ok((Size(-2), Size(1)))
    ensures ModScalar(Size(-3), FromInt(2)) == Ok(Size(1))
    ensures 2 * FloorDivScalar(Size(-3), 2).value.bytes + ModScalar(Size(-3), FromInt(2)).value.bytes != -3
  {
    TruncUnique(Quotient(-3, 2), -1);
    TruncUnique(Fraction(1, 1), 1);
  }

  /** Comparisons order Sizes by byte count, consistently with one another
      and with equality of Sizes. */
  lemma ComparisonsAgree(a: Size, b: Size)
    ensures Equal(a, b) <==> a == b
    ensures NotEqual(a, b) <==> !Equal(a, b)
    ensures Gt(a, b) <==> Lt(b, a)
    ensures Ge(a, b) <==> Le(b, a)
    ensures Le(a, b) <==> Lt(a, b) || Equal(a, b)
    ensures Lt(a, b) || Equal(a, b) || Gt(a, b)
  {
  }

  /** Ordering Sizes by byte count is the same as ordering their exact
      values in any positive unit. */
  lemma OrderMatchesConversion(a: Size, b: Size, spec: UnitSpec)
    requires SpecFactor(spec) > 0
    ensures ConvertTo(a, Some(spec)).Ok? && ConvertTo(b, Some(spec)).Ok?
    ensures Lt(a, b) <==> Less(ConvertTo(a, Some(spec)).value, ConvertTo(b, Some(spec)).value)
    ensures Equal(a, b) <==> Eq(ConvertTo(a, Some(spec)).value, ConvertTo(b, Some(spec)).value)
  {
    var f := SpecFactor(spec);
    assert (b.bytes - a.bytes) * f == b.bytes * f - a.bytes * f;
    MulSign(b.bytes - a.bytes, f);
  }
}

=== FILE: sizes.dfy ===
/** The `Size` value: one integer byte count. Construction from numbers
    and numeral strings scaled by a unit, the unary and binary operators,
    the comparisons and `convertTo` all act on that count. */
module Sizes {
  import opened Rationals
  import opened Errors
  import opened Constants
  import opened Decimals

  /** A whole number of bytes, possibly negative. */
  datatype Size = Size(bytes: int)

  /** A unit specifier: a named unit, or a Size standing for its own byte
      count. */
  datatype UnitSpec = Named(unit: Unit) | BySize(size: Size)

  /** What a Size can be built from: an exact number (an `int`, a `Decimal`
      or a `Fraction`), a string, another Size, or a bare unit, which is
      not a number and is rejected. */
  datatype Value = Number(q: Rat) | Text(s: string) | OfSize(size: Size) | OfUnit(unit: Unit)

  /** The right operand of `*`: an exact number, or a Size. */
  datatype Multiplier = Times(q: Rat) | TimesSize(size: Size)

  /** `int(spec)`: the factor of a named unit, the byte count of a Size. */
  function SpecFactor(spec: UnitSpec): int {
    match spec
    case Named(u) => u.factor
    case BySize(s) => s.bytes
  }

  /** `int(units or B)` in the constructor. Absent units stand for bytes,
      and so does `Size(0)`, which is false in a boolean context. */
  function ScaleFactor(units: Option<UnitSpec>): (k: int)
    ensures units.None? ==> k == 1
    ensures units == Some(BySize(Size(0))) ==> k == 1
    ensures units.Some? && units.value.Named? ==> k == units.value.unit.factor
    ensures units.Some? && SpecFactor(units.value) != 0 ==> k == SpecFactor(units.value)
    ensures k == 0 ==> units.Some? && units.value.Named? && units.value.unit.factor == 0
  {
    match units
    case None => 1
    case Some(spec) => if spec == BySize(Size(0)) then 1 else SpecFactor(spec)
  }

  /** A number scaled by the units' factor, truncated toward zero. */
  function Scaled(q: Rat, units: Option<UnitSpec>): Size {
    Size(Trunc(Scale(q, ScaleFactor(units))))
  }

  /** `Size(value, units)`. A number or numeral string is multiplied by the
      unit factor and rounded toward zero; a Size is copied, but only when
      no units are given; anything else, a string that is not a numeral
      included, is a value error. */
  function New(value: Value, units: Option<UnitSpec>): (r: Result<Size>)
    ensures r.Err? <==>
              || value.OfUnit?
              || (value.OfSize? && units.Some?)
              || (value.Text? && ParseFraction(value.s).None?)
    ensures r.Err? ==> r.error == SizeValueError(if value.OfSize? then "units" else "value")
    ensures value.OfSize? && units.None? ==> r == Ok(value.size)
    ensures value.Number? ==> r.Ok? && TruncatesTo(Scale(value.q, ScaleFactor(units)), r.value.bytes)
    ensures value.Text? && r.Ok? ==>
              TruncatesTo(Scale(ParseFraction(value.s).value, ScaleFactor(units)), r.value.bytes)
  {
    match value
    case Number(q) =>
      TruncUnique(Scale(q, ScaleFactor(units)), Scaled(q, units).bytes);
      Ok(Scaled(q, units))
    case Text(s) =>
      (match ParseFraction(s)
       case None => Err(SizeValueError("value"))
       case Some(q) =>
         TruncUnique(Scale(q, ScaleFactor(units)), Scaled(q, units).bytes);
         Ok(Scaled(q, units)))
    case OfSize(size) => if units.Some? then Err(SizeValueError("units")) else Ok(size)
    case OfUnit(_) => Err(SizeValueError("value"))
  }

  // Unary operators.

  function Absolute(s: Size): (r: Size)
    ensures r.bytes >= 0 && (r.bytes == s.bytes || r.bytes == -s.bytes)
  {
    Size(if s.bytes < 0 then -s.bytes else s.bytes)
  }

  function Negate(s: Size): Size {
    Size(-s.bytes)
  }

  function UnaryPlus(s: Size): Size {
    Size(s.bytes)
  }

  // Binary operators between Sizes.

  function Add(a: Size, b: Size): Size {
    Size(a.bytes + b.bytes)
  }

  function Sub(a: Size, b: Size): Size {
    Size(a.bytes - b.bytes)
  }

  /** `a * m`: a Size times an exact number, rounded toward zero as
      construction does. A product of two Sizes has no unit and is an
      error. */
  function Mul(a: Size, m: Multiplier): (r: Result<Size>)
    ensures r == Err(SizePowerResultError) <==> m.TimesSize?
    ensures m.Times? ==> r.Ok? && TruncatesTo(Scale(m.q, a.bytes), r.value.bytes)
  {
    match m
    case Times(q) =>
      TruncUnique(Scale(q, a.bytes), Trunc(Scale(q, a.bytes)));
      Ok(Size(Trunc(Scale(q, a.bytes))))
    case TimesSize(_) => Err(SizePowerResultError)
  }

  /** `a ** e` for a numeric exponent: powers of Sizes are not Sizes. */
  function Power(a: Size, e: Rat): Result<Size> {
    Err(SizePowerResultError)
  }

  /** `a / b`: the exact quotient of the byte counts as a fraction. */
  function TrueDiv(a: Size, b: Size): (r: Result<Rat>)
    ensures r.Err? <==> b.bytes == 0
    ensures r.Err? ==> r.error == ZeroDivisionError
    ensures r.Ok? ==> Eq(Scale(r.value, b.bytes), FromInt(a.bytes))
  {
    if b.bytes == 0 then Err(ZeroDivisionError) else Ok(Quotient(a.bytes, b.bytes))
  }

  /** `divmod(a, b)` for two Sizes: an integer quotient and a Size
      remainder with `b * div + rem == a`, the remainder taking the
      divisor's sign as Python's integer `divmod` has it. */
  function DivMod(a: Size, b: Size): (r: Result<(int, Size)>)
    ensures r.Err? <==> b.bytes == 0
    ensures r.Err? ==> r.error == ZeroDivisionError
    ensures r.Ok? ==> b.bytes * r.value.0 + r.value.1.bytes == a.bytes
    ensures r.Ok? && b.bytes > 0 ==> 0 <= r.value.1.bytes < b.bytes
    ensures r.Ok? && b.bytes < 0 ==> b.bytes < r.value.1.bytes <= 0
  {
    if b.bytes == 0 then Err(ZeroDivisionError)
    else Ok((FloorDiv(a.bytes, b.bytes), Size(FloorMod(a.bytes, b.bytes))))
  }

  /** `a // b` for two Sizes: Python's integer floor division. */
  function FloorDivide(a: Size, b: Size): (r: Result<int>)
    ensures r.Err? <==> b.bytes == 0
    ensures r.Err? ==> r.error == ZeroDivisionError
    ensures r.Ok? && b.bytes > 0 ==> r.value * b.bytes <= a.bytes < r.value * b.bytes + b.bytes
    ensures r.Ok? && b.bytes < 0 ==> r.value * b.bytes + b.bytes < a.bytes <= r.value * b.bytes
  {
    if b.bytes == 0 then Err(ZeroDivisionError) else Ok(FloorDiv(a.bytes, b.bytes))
  }

  /** `a % b` for two Sizes: Python's integer remainder, which has the
      divisor's sign. */
  function Modulo(a: Size, b: Size): (r: Result<Size>)
    ensures r.Err? <==> b.bytes == 0
    ensures r.Err? ==> r.error == ZeroDivisionError
    ensures r.Ok? && b.bytes > 0 ==> 0 <= r.value.bytes < b.bytes
    ensures r.Ok? && b.bytes < 0 ==> b.bytes < r.value.bytes <= 0
  {
    if b.bytes == 0 then Err(ZeroDivisionError) else Ok(Size(FloorMod(a.bytes, b.bytes)))
  }

  // Binary operators with an exact number on the right.

  /** The exact remainder `a - div * q` of dividing the byte count by a
      rational, as a numerator over `q.den`. */
  function RemainderNumerator(a: Size, q: Rat, div: int): int {
    a.bytes * q.den - div * q.num
  }

  /** `divmod(a, q)` for an exact number `q`: the floor of `a / q` and the
      exact remainder, each made a Size, so that the remainder is rounded
      toward zero. */
  function DivModScalar(a: Size, q: Rat): (r: Result<(Size, Size)>)
    ensures r.Err? <==> q.num == 0
    ensures r.Err? ==> r.error == ZeroDivisionError
    ensures r.Ok? && q.num > 0 ==> 0 <= RemainderNumerator(a, q, r.value.0.bytes) < q.num
    ensures r.Ok? && q.num < 0 ==> q.num < RemainderNumerator(a, q, r.value.0.bytes) <= 0
    ensures r.Ok? ==>
              TruncatesTo(Fraction(RemainderNumerator(a, q, r.value.0.bytes), q.den), r.value.1.bytes)
  {
    if q.num == 0 then Err(ZeroDivisionError)
    else
      var div := FloorDiv(a.bytes * q.den, q.num);
      var rem := Fraction(FloorMod(a.bytes * q.den, q.num), q.den);
      TruncUnique(rem, Trunc(rem));
      Ok((Size(div), Size(Trunc(rem))))
  }

  /** `a % q` for an exact number `q`: the exact floor remainder, rounded
      toward zero when made a Size. */
  function ModScalar(a: Size, q: Rat): (r: Result<Size>)
    ensures r.Err? <==> q.num == 0
    ensures r.Err? ==> r.error == ZeroDivisionError
  {
    if q.num == 0 then Err(ZeroDivisionError)
    else Ok(Size(Trunc(Fraction(FloorMod(a.bytes * q.den, q.num), q.den))))
  }

  /** `a // k` for an integer `k`, as written: the byte count is made a
      `Decimal` first, whose `//` rounds toward zero. Dividing zero by zero
      and a quotient of 28 digits or more are invalid decimal operations;
      dividing anything else by zero is a division by zero. */
  function FloorDivScalar(a: Size, k: int): (r: Result<Size>)
    ensures r == Err(ZeroDivisionError) <==> k == 0 && a.bytes != 0
    ensures r == Err(DecimalInvalidOperation) <==>
              (k == 0 && a.bytes == 0) || (k != 0 && Absolute(a).bytes >= Pow(10, Precision) * Absolute(Size(k)).bytes)
    ensures r.Ok? ==> k != 0 && TruncatesTo(Quotient(a.bytes, k), r.value.bytes)
  {
    if k == 0 then
      if a.bytes == 0 then Err(DecimalInvalidOperation) else Err(ZeroDivisionError)
    else
      var t := Trunc(Quotient(a.bytes, k));
      TruncUnique(Quotient(a.bytes, k), t);
      TruncatedQuotientBound(a.bytes, k, t);
      if Absolute(Size(t)).bytes >= Pow(10, Precision) then Err(DecimalInvalidOperation)
      else Ok(Size(t))
  }

  /** The truncated quotient reaches `10^28` exactly when the dividend is
      at least `10^28` times the divisor in magnitude. */
  lemma TruncatedQuotientBound(a: int, k: int, t: int)
    requires k != 0 && TruncatesTo(Quotient(a, k), t)
    ensures Absolute(Size(t)).bytes >= Pow(10, Precision) <==>
              Absolute(Size(a)).bytes >= Pow(10, Precision) * Absolute(Size(k)).bytes
  {
    TruncatedQuotientMagnitude(a, k, t);
    QuotientThreshold(Absolute(Size(a)).bytes, Absolute(Size(k)).bytes, Absolute(Size(t)).bytes, Pow(10, Precision));
  }

  /** An integer quotient reaches a threshold exactly when the dividend
      reaches the threshold times the divisor. */
  lemma QuotientThreshold(aa: int, kk: int, tt: int, P: int)
    requires kk > 0 && tt * kk <= aa < tt * kk + kk
    ensures tt >= P <==> aa >= P * kk
  {
    if tt >= P {
      MulMonotone(P, tt, kk);
    } else {
      MulMonotone(tt + 1, P, kk);
    }
  }

  /** In magnitudes, the truncated quotient `t` of `a` by `k` satisfies
      `|t| * |k| <= |a| < |t| * |k| + |k|`. */
  lemma TruncatedQuotientMagnitude(a: int, k: int, t: int)
    requires k != 0 && TruncatesTo(Quotient(a, k), t)
    ensures var aa, kk, tt := Absolute(Size(a)).bytes, Absolute(Size(k)).bytes, Absolute(Size(t)).bytes;
            tt * kk <= aa < tt * kk + kk
  {
    if k > 0 {
      assert Quotient(a, k) == Fraction(a, k);
      MulSign(t, k);
      assert (-t) * k == -(t * k);
    } else {
      assert Quotient(a, k) == Fraction(-a, -k);
      MulSign(t, -k);
      assert (-t) * (-k) == -(t * (-k));
    }
  }

  /** A non-zero multiple of a positive `y` is at least `y` away from zero,
      on the side of the other factor's sign. */
  lemma MulSign(x: int, y: int)
    requires y > 0
    ensures x > 0 ==> x * y >= y
    ensures x < 0 ==> x * y <= -y
  {
    if x > 0 {
      MulMonotone(1, x, y);
    } else if x < 0 {
      MulMonotone(x, -1, y);
    }
  }

  /** `a // q` for an exact number `q` as the in-code comment describes it
      (`other * floor + rem = self`): the floor of `a / q`, the quotient
      `divmod` gives. */
  function FloorDivScalarFloored(a: Size, q: Rat): (r: Result<Size>)
    ensures r.Err? <==> q.num == 0
    ensures r.Err? ==> r.error == ZeroDivisionError
    ensures r.Ok? && q.num > 0 ==> 0 <= RemainderNumerator(a, q, r.value.bytes) < q.num
    ensures r.Ok? && q.num < 0 ==> q.num < RemainderNumerator(a, q, r.value.bytes) <= 0
  {
    if q.num == 0 then Err(ZeroDivisionError) else Ok(Size(FloorDiv(a.bytes * q.den, q.num)))
  }

  // Comparisons: all of them compare byte counts.

  predicate Equal(a: Size, b: Size) {
    a.bytes == b.bytes
  }

  predicate NotEqual(a: Size, b: Size) {
    a.bytes != b.bytes
  }

  predicate Lt(a: Size, b: Size) {
    a.bytes < b.bytes
  }

  predicate Le(a: Size, b: Size) {
    a.bytes <= b.bytes
  }

  predicate Gt(a: Size, b: Size) {
    a.bytes > b.bytes
  }

  predicate Ge(a: Size, b: Size) {
    a.bytes >= b.bytes
  }

  // Unit conversion.

  /** The factor `convertTo` divides by: bytes when no specifier is given. */
  function ConvertFactor(spec: Option<UnitSpec>): int {
    if spec.None? then 1 else SpecFactor(spec.value)
  }

  /** `s.convertTo(spec)`: the exact number of units in the size. A unit
      of no or negative bytes is rejected. */
  function ConvertTo(s: Size, spec: Option<UnitSpec>): (r: Result<Rat>)
    ensures r.Err? <==> ConvertFactor(spec) <= 0
    ensures r.Err? ==> r.error == SizeValueError("factor")
    ensures r.Ok? ==> Eq(Scale(r.value, ConvertFactor(spec)), FromInt(s.bytes))
  {
    var f := ConvertFactor(spec);
    if f <= 0 then Err(SizeValueError("factor")) else Ok(InUnits(s, f))
  }

  /** The byte count over a positive factor. */
  function InUnits(s: Size, f: int): (r: Rat)
    requires f > 0
    ensures Eq(Scale(r, f), FromInt(s.bytes))
  {
    Fraction(s.bytes, f)
  }
}

=== FILE: util.dfy ===
/** `format_magnitude`: render an exact rational with at most `max_places`
    digits after the decimal point, optionally stripping trailing zeros. */
module Util {
  import opened Rationals
  import opened Errors
  import opened Decimals

  /** `s.rstrip(c)`: the longest prefix of `s` that does not end in `c` and
      after which only copies of `c` follow. */
  function RStrip(s: string, c: char): (r: string)
    ensures |r| <= |s| && r == s[..|r|]
    ensures |r| > 0 ==> r[|r| - 1] != c
    ensures forall i :: |r| <= i < |s| ==> s[i] == c
    decreases |s|
  {
    if |s| > 0 && s[|s| - 1] == c then RStrip(s[..|s| - 1], c) else s
  }

  /** `s.rstrip("0").rstrip(".")`. */
  function StripZeros(s: string): string {
    RStrip(RStrip(s, '0'), '.')
  }

  /** At most one character of `s` is a decimal point. */
  predicate AtMostOneDot(s: string) {
    forall i, j :: 0 <= i < j < |s| && s[i] == '.' ==> s[j] != '.'
  }

  /** Whether `str(Decimal)` writes the quantized `x` without an exponent. */
  predicate WrittenPlain(x: Rat, places: nat) {
    IsPlain(QuantizeCoefficient(x, places), places)
  }

  /** The shape of an unstripped plain rendering with `places` digits: a
      point exactly `places` characters from the end (none when `places` is
      zero), digits after it, and no other point. */
  predicate HasExactPlaces(s: string, places: nat) {
    if places == 0 then '.' !in s
    else
      && |s| > places
      && s[|s| - places - 1] == '.'
      && '.' !in s[..|s| - places - 1]
      && AllDigits(s[|s| - places..])
  }

  /** `format_magnitude(value, max_places, strip)`. The value is taken as
      an exact rational; the display digits are rounded half to even, the
      rounding of the default decimal context. A negative `max_places` is
      rejected, and so is a quantized value of more than 28 digits. */
  function FormatMagnitude(value: Rat, maxPlaces: int, strip: bool): (r: Result<string>)
    ensures r == Err(SizeValueError("max_places")) <==> maxPlaces < 0
    ensures r == Err(DecimalInvalidOperation) <==>
              maxPlaces >= 0 && QuantizeCoefficient(value, maxPlaces) >= Pow(10, Precision)
    ensures r.Ok? <==> maxPlaces >= 0 && QuantizeCoefficient(value, maxPlaces) < Pow(10, Precision)
  {
    if maxPlaces < 0 then
      Err(SizeValueError("max_places"))
    else
      var c := QuantizeCoefficient(value, maxPlaces);
      NatDigitsLength(c, Precision);
      if |NatDigits(c)| > Precision then
        Err(DecimalInvalidOperation)
      else
        Ok(Render(value, maxPlaces, strip))
  }

  /** The text `format_magnitude` returns once its checks pass: the
      quantized value as `str(Decimal)` writes it, then, when asked, with
      trailing zeros and a trailing point removed from the digits before
      any exponent. The code strips the whole text instead, exponent
      included (`RenderAsWritten`); the two agree on every text written
      without exponent. */
  function Render(value: Rat, places: nat, strip: bool): string {
    var s := DecimalString(IsNegative(value), QuantizeCoefficient(value, places), places);
    if strip then StripMantissa(s) else s
  }

  /** The rendering as the code writes it: `rstrip` runs over the whole
      `str(Decimal)` text whenever it contains a point. */
  function RenderAsWritten(value: Rat, places: nat, strip: bool): string {
    var s := DecimalString(IsNegative(value), QuantizeCoefficient(value, places), places);
    if '.' in s && strip then StripZeros(s) else s
  }

  /** `rstrip("0").rstrip(".")` applied to the part of `s` before its
      exponent mark, when that part has a point; the exponent is kept. */
  function StripMantissa(s: string): string {
    var e := ExponentAt(s);
    if '.' in s[..e] then StripZeros(s[..e]) + s[e..] else s
  }

  /** On text without an exponent mark, stripping the mantissa is the
      code's stripping. */
  lemma StripMantissaPlain(s: string)
    requires NoExponentMark(s)
    ensures StripMantissa(s) == if '.' in s then StripZeros(s) else s
  {
    assert ExponentAt(s) == |s|;
    assert s[..|s|] == s;
    assert s[|s|..] == "";
  }

  /** Text before the exponent mark is split off at the mark, and only it
      is stripped. */
  lemma StripMantissaSplit(m: string, tail: string)
    requires NoExponentMark(m) && |tail| > 0 && tail[0] == 'E'
    ensures ExponentAt(m + tail) == |m|
    ensures StripMantissa(m + tail) == (if '.' in m then StripZeros(m) else m) + tail
  {
    var s := m + tail;
    assert s[|m|] == 'E';
    assert forall j :: 0 <= j < |m| ==> s[j] == m[j];
    assert s[..|m|] == m;
    assert s[|m|..] == tail;
  }

  /** The code's rendering and the intended one differ only when the
      stripped text has an exponent: they agree without stripping, and
      with stripping on every text written without exponent. */
  lemma RenderAgreesWhenPlain(value: Rat, places: nat, strip: bool)
    ensures Render(value, places, false) == RenderAsWritten(value, places, false)
    ensures places <= 6 || WrittenPlain(value, places) ==>
              Render(value, places, strip) == RenderAsWritten(value, places, strip)
  {
    var c := QuantizeCoefficient(value, places);
    DecimalStringShape(IsNegative(value), c, places);
    if IsPlain(c, places) {
      PlainNoExponentMark(IsNegative(value), c, places);
      StripMantissaPlain(DecimalString(IsNegative(value), c, places));
    }
  }

  /** A plain `str(Decimal)` text has no exponent mark. */
  lemma PlainNoExponentMark(negative: bool, c: nat, places: nat)
    requires IsPlain(c, places)
    ensures NoExponentMark(DecimalString(negative, c, places))
  {
    var sign := if negative then "-" else "";
    var p := PlainDigits(NatDigits(c), places);
    var s := sign + p;
    assert DecimalString(negative, c, places) == s;
    forall i | 0 <= i < |s|
      ensures s[i] != 'E' && s[i] != 'e'
    {
      if i >= |sign| {
        var j := i - |sign|;
        assert s[i] == p[j];
        if places > 0 {
          var k := |p| - places - 1;
          if j < k {
            assert p[j] == p[..k][j];
          } else if j > k {
            assert p[j] == p[|p| - places..][j - k - 1];
          }
        }
      }
    }
  }

  /** The pieces of an exponent form: a mantissa with at most one point,
      starting and ending with a digit or a sign, then `E-` and digits. */
  lemma ScientificPieces(negative: bool, c: nat, places: nat) returns (m: string, tail: string)
    requires !IsPlain(c, places)
    ensures DecimalString(negative, c, places) == m + tail
    ensures |tail| > 0 && tail[0] == 'E' && NoExponentMark(m)
    ensures |m| > 0 && m[0] != '.' && m[|m| - 1] != '.' && AtMostOneDot(m)
    ensures '.' !in tail && tail[|tail| - 1] != '.'
  {
    var d := NatDigits(c);
    var sign := if negative then "-" else "";
    var digits := NatDigits(places + 1 - |d|);
    m := sign + ScientificMantissa(d);
    tail := "E-" + digits;
    assert DecimalString(negative, c, places) == m + tail;
    MantissaShape(sign, d);
    forall i | 0 <= i < |tail|
      ensures tail[i] != '.'
    {
      if i >= 2 {
        assert tail[i] == digits[i - 2];
      }
    }
    assert tail[|tail| - 1] == digits[|digits| - 1];
  }

  /** A sign and the mantissa of the exponent form: no exponent mark, at
      most one point, and neither first nor last. */
  lemma MantissaShape(sign: string, d: string)
    requires sign == "" || sign == "-"
    requires |d| > 0 && AllDigits(d)
    ensures var m := sign + ScientificMantissa(d);
            && NoExponentMark(m)
            && |m| > 0 && m[0] != '.' && m[|m| - 1] != '.' && AtMostOneDot(m)
  {
    var m := sign + ScientificMantissa(d);
    if |d| == 1 {
      assert m == sign + d;
      NoDots(sign, d);
      assert m[|m| - 1] == d[0];
    } else {
      assert m == sign + ([d[0]] + "." + d[1..]);
      SignedPointedShape(sign, [d[0]], d[1..]);
    }
    forall i | 0 <= i < |m|
      ensures m[i] != 'E' && m[i] != 'e'
    {
      if i > |sign| + 1 {
        assert m[i] == d[i - |sign| - 1];
      } else if i == |sign| {
        assert m[i] == d[0];
      }
    }
  }

  /** Text with at most one point followed by text with none has at most
      one point. */
  lemma AppendNoDots(m: string, tail: string)
    requires AtMostOneDot(m) && '.' !in tail
    ensures AtMostOneDot(m + tail)
  {
    var s := m + tail;
    forall i, j | 0 <= i < j < |s| && s[i] == '.'
      ensures s[j] != '.'
    {
      if j >= |m| {
        assert s[j] == tail[j - |m|];
      }
    }
  }

  /** Without stripping, the rendering has exactly `places` digits after
      its only point, and no point at all for zero places, whenever it is
      written without exponent (always so for at most six places). */
  lemma RenderExactPlaces(value: Rat, places: nat)
    requires places <= 6 || WrittenPlain(value, places)
    ensures HasExactPlaces(Render(value, places, false), places)
  {
    DecimalStringShape(IsNegative(value), QuantizeCoefficient(value, places), places);
  }

  /** With stripping, the digits before any exponent never end in a point
      and, while they still have a point, never end in a zero; the exponent
      is kept as it was; a rendering without a point is left as it was. */
  lemma RenderStrippedShape(value: Rat, places: nat)
    ensures var r := Render(value, places, true);
            var m := r[..ExponentAt(r)];
            && |m| > 0 && m[|m| - 1] != '.'
            && ('.' in m ==> m[|m| - 1] != '0')
    ensures var r := Render(value, places, true);
            var s := Render(value, places, false);
            r[ExponentAt(r)..] == s[ExponentAt(s)..]
    ensures var s := Render(value, places, false);
            '.' !in s ==> Render(value, places, true) == s
  {
    var c := QuantizeCoefficient(value, places);
    var negative := IsNegative(value);
    var s := DecimalString(negative, c, places);
    DecimalStringShape(negative, c, places);
    if IsPlain(c, places) {
      PlainNoExponentMark(negative, c, places);
      assert s + "" == s;
      MantissaStripShape(s, "");
    } else {
      var m, tail := ScientificPieces(negative, c, places);
      assert StripMantissa(s) == StripMantissa(m + tail);
      MantissaStripShape(m, tail);
    }
  }

  /** Stripping the mantissa of a mantissa followed by an exponent (or by
      nothing) strips the mantissa alone, keeps the exponent, and leaves a
      mantissa that ends in neither a point nor, while it has a point, a
      zero. */
  lemma MantissaStripShape(m: string, tail: string)
    requires NoExponentMark(m) && (tail == "" || tail[0] == 'E')
    requires |m| > 0 && m[0] != '.' && m[|m| - 1] != '.' && AtMostOneDot(m)
    ensures ExponentAt(m + tail) == |m|
    ensures var r := StripMantissa(m + tail);
            var k := ExponentAt(r);
            && r[k..] == tail
            && r[..k] == (if '.' in m then StripZeros(m) else m)
            && |r[..k]| > 0 && r[k - 1] != '.'
            && ('.' in r[..k] ==> r[k - 1] != '0')
  {
    var m' := if '.' in m then StripZeros(m) else m;
    StrippedShape(m);
    StrippedNoMark(m);
    if tail == "" {
      StripMantissaEnd(m, m');
    } else {
      StripMantissaSplit(m, tail);
      StripMantissaSplit(m', tail);
      assert (m' + tail)[..|m'|] == m';
      assert (m' + tail)[|m'|..] == tail;
    }
  }

  lemma StripMantissaEnd(m: string, m': string)
    requires NoExponentMark(m) && NoExponentMark(m')
    requires m' == if '.' in m then StripZeros(m) else m
    ensures m + "" == m && ExponentAt(m) == |m|
    ensures StripMantissa(m) == m' && ExponentAt(m') == |m'|
    ensures m'[..|m'|] == m' && m'[|m'|..] == ""
  {
    StripMantissaPlain(m);
    assert ExponentAt(m) == |m|;
    assert ExponentAt(m') == |m'|;
  }

  /** Stripping only removes characters from the end, so it adds no
      exponent mark. */
  lemma StrippedNoMark(s: string)
    requires NoExponentMark(s)
    ensures NoExponentMark(if '.' in s then StripZeros(s) else s)
  {
    var r := RStrip(s, '0');
    assert forall i :: 0 <= i < |r| ==> r[i] == s[i];
    var u := RStrip(r, '.');
    assert forall i :: 0 <= i < |u| ==> u[i] == r[i];
  }

  /** Stripping a rendering that neither starts nor ends with a point and
      has at most one. */
  lemma StrippedShape(s: string)
    requires |s| > 0 && s[0] != '.' && s[|s| - 1] != '.' && AtMostOneDot(s)
    ensures var r := if '.' in s then StripZeros(s) else s;
            && |r| > 0 && r[|r| - 1] != '.'
            && ('.' in r ==> r[|r| - 1] != '0')
  {
    if '.' in s {
      StripZerosShape(s);
    }
  }

  /** A number has at most `n` digits exactly when it is below 10^n. */
  lemma {:induction false} NatDigitsLength(c: nat, n: nat)
    requires n > 0
    ensures |NatDigits(c)| <= n <==> c < Pow(10, n)
    decreases c
  {
    NatDigitsBounds(c);
    var L := |NatDigits(c)|;
    if L <= n {
      PowMonotone(10, L, n);
    } else {
      PowMonotone(10, n, L - 1);
    }
  }

  lemma {:induction false} NatDigitsBounds(c: nat)
    ensures c < Pow(10, |NatDigits(c)|)
    ensures Pow(10, |NatDigits(c)| - 1) <= c || c == 0
    decreases c
  {
    if c >= 10 {
      NatDigitsBounds(c / 10);
    }
  }

  lemma {:induction false} PowMonotone(base: nat, a: nat, b: nat)
    requires base > 0 && a <= b
    ensures Pow(base, a) <= Pow(base, b)
    decreases b
  {
    if a < b {
      PowMonotone(base, a, b - 1);
      MulMonotone(1, base, Pow(base, b - 1));
    }
  }

  /** The rendering of a quantized decimal starts and ends with something
      other than a point, has at most one point, and is plain with exact
      places when `IsPlain` holds (always so for at most six places). */
  lemma DecimalStringShape(negative: bool, c: nat, places: nat)
    ensures var s := DecimalString(negative, c, places);
            && |s| > 0 && s[0] != '.' && s[|s| - 1] != '.'
            && AtMostOneDot(s)
            && (places <= 6 ==> IsPlain(c, places))
            && (IsPlain(c, places) ==> HasExactPlaces(s, places))
  {
    if IsPlain(c, places) {
      PlainStringShape(negative, c, places);
    } else {
      ScientificStringShape(negative, c, places);
    }
  }

  lemma PlainStringShape(negative: bool, c: nat, places: nat)
    requires IsPlain(c, places)
    ensures var s := DecimalString(negative, c, places);
            && |s| > 0 && s[0] != '.' && s[|s| - 1] != '.'
            && AtMostOneDot(s)
            && HasExactPlaces(s, places)
  {
    var sign := if negative then "-" else "";
    var p := PlainDigits(NatDigits(c), places);
    assert DecimalString(negative, c, places) == sign + p;
    SignedPlainShape(sign, p, places);
  }

  /** A sign, then digits with a point `places` from the end (no point
      when `places` is zero). */
  lemma SignedPlainShape(sign: string, p: string, places: nat)
    requires sign == "" || sign == "-"
    requires |p| > 0 && IsDigit(p[0])
    requires places == 0 ==> AllDigits(p)
    requires places > 0 ==> |p| > places && p[|p| - places - 1] == '.'
    requires places > 0 ==> AllDigits(p[..|p| - places - 1]) && AllDigits(p[|p| - places..])
    ensures var s := sign + p;
            && |s| > 0 && s[0] != '.' && s[|s| - 1] != '.'
            && AtMostOneDot(s)
            && HasExactPlaces(s, places)
  {
    if places == 0 {
      NoDots(sign, p);
      assert (sign + p)[|sign + p| - 1] == p[|p| - 1];
    } else {
      SignedPointedShape(sign, p[..|p| - places - 1], p[|p| - places..]);
      assert p == p[..|p| - places - 1] + "." + p[|p| - places..];
    }
  }

  /** A sign, digits, a point and more digits. */
  lemma SignedPointedShape(sign: string, w: string, f: string)
    requires sign == "" || sign == "-"
    requires |w| > 0 && AllDigits(w) && |f| > 0 && AllDigits(f)
    ensures var s := sign + (w + "." + f);
            && |s| > 0 && s[0] != '.' && s[|s| - 1] != '.'
            && AtMostOneDot(s)
            && HasExactPlaces(s, |f|)
  {
    assert sign + (w + "." + f) == (sign + w) + "." + f;
    NoDots(sign, w);
    PointShape(sign + w, f);
  }

  /** A sign followed by digits has no point. */
  lemma NoDots(sign: string, digits: string)
    requires sign == "" || sign == "-"
    requires AllDigits(digits)
    ensures '.' !in sign + digits
    ensures |digits| > 0 ==> (sign + digits)[0] != '.'
  {
    var s := sign + digits;
    forall i | 0 <= i < |s|
      ensures s[i] != '.'
    {
      if i >= |sign| {
        assert s[i] == digits[i - |sign|];
      }
    }
  }

  /** Text without a point, a point, then digits: one point, `|tail|`
      places after it. */
  lemma PointShape(head: string, tail: string)
    requires '.' !in head && |head| > 0 && AllDigits(tail) && |tail| > 0
    ensures var s := head + "." + tail;
            && s[0] != '.' && s[|s| - 1] != '.'
            && AtMostOneDot(s)
            && HasExactPlaces(s, |tail|)
  {
    var s := head + "." + tail;
    var k := |head|;
    assert s[..k] == head;
    assert s[k + 1..] == tail;
    assert s[|s| - 1] == tail[|tail| - 1];
    forall i | 0 <= i < |s| && i != k
      ensures s[i] != '.'
    {
      if i < k {
        assert s[i] == head[i];
      } else {
        assert s[i] == tail[i - k - 1];
      }
    }
  }

  lemma ScientificStringShape(negative: bool, c: nat, places: nat)
    requires !IsPlain(c, places)
    ensures var s := DecimalString(negative, c, places);
            && |s| > 0 && s[0] != '.' && s[|s| - 1] != '.'
            && AtMostOneDot(s)
  {
    var m, tail := ScientificPieces(negative, c, places);
    AppendNoDots(m, tail);
    assert (m + tail)[0] == m[0];
    assert (m + tail)[|m + tail| - 1] == tail[|tail| - 1];
  }

  /** Stripping a string with at most one point that contains a point
      leaves something that ends neither in a point nor, while a point
      remains, in a zero. */
  lemma StripZerosShape(s: string)
    requires AtMostOneDot(s) && '.' in s && s[0] != '.' && s[|s| - 1] != '.'
    ensures var r := StripZeros(s);
            && |r| > 0 && r[|r| - 1] != '.'
            && ('.' in r ==> r[|r| - 1] != '0')
  {
    var t := RStrip(s, '0');
    var u := RStrip(t, '.');
    var i :| 0 <= i < |s| && s[i] == '.';
    assert i < |t|;
    assert t[0] == s[0];
  }
}
